=== FILE: README.md ===
# AIDA Pathology Anonymizer for Excel sheets, in Dafny

This project models the core of `aida-pat-anonexcel.py`. The script reads an
"AIDA Pathology Anonymization Sheet": an Excel ledger whose data rows start at
row 13. Each row names a case, the case's AnonID, and the block and stain of one
slide. The script works in four stages:

1. It checks the sheet's header (`check_worksheet`).
2. It validates every data row in one pass (`validate_anonymization_data`):
   - the status must be empty, "done" or "ignore";
   - a done row must carry AnonID, Block and Stain, and its barcode must be unique;
   - the first AnonID fixes the format for all of them (a prefix and a zero-padded number);
   - AnonID numbers never decrease;
   - case ids and AnonIDs pair one to one;
   - a case appears once unless its rows are done.
3. It walks the rows (`anonymize`):
   - done rows are saved again;
   - a pending row whose case is missing from the work directory stops the run without an error;
   - any other pending row has its case's slide directories read (`get_slides`);
   - each slide is anonymised by the external `anonymize_wsi` command, with the barcode `AnonID;AnonID;Block;Stain`;
   - the row is then expanded into one "Done" row per slide (`update_spreadsheet`), and the workbook is saved.
4. It lists the files in the output directory whose barcode the run does not know (`get_garbage`).

Modules follow those stages:

- **Outcomes** holds the `Result`/`Option` types. Its `Error` is a row number and a kind:
  - one kind per `ParseError` message the script raises;
  - `SlideDirSplit` for the `ValueError` the script does not catch;
  - `CaseDirUnreadable` for the `StopIteration` the script does not catch.
- **Text** holds the string helpers the script takes from Python:
  - decimal digits and zero padding;
  - `str.split` and `str.rsplit`;
  - `os.path.basename`, `os.path.join` and `os.path.splitext`.
- **Ledger** holds the row and sheet records, the case id and barcode of a row, and the header check.
- **AnonIds** holds `parse_anonid`, `validate_anonid_number` and `validate_id_mapping`.
- **Validation** holds the validation pass, written twice:
  - `Scan` is the fold the script performs;
  - `ValidLedger` is a declarative statement of what each row must satisfy, given the rows above it;
  - `ScanCharacterized` proves that the two agree.
- **Slides** holds `get_slides`, with the file system given as a listing of the case directory.
- **Processing** holds `update_spreadsheet` and the `anonymize` loop.
  - The file system and the anonymiser are given as an environment: the paths that exist, the listing of each readable directory, and the command lines that fail.
  - A run returns how it ended, the spreadsheet, the barcodes and a trace. The trace lists every anonymiser invocation and every save of the workbook.
- **Garbage** holds `get_garbage`, as a loop checked against a reference filter.

Four behaviours of the script shape the model:

- **The script allocates no AnonIDs.** Every row that is not ignored must already carry one (`aida-pat-anonexcel.py:210-211`). The loop uses the row's own AnonID.
- **A blank Case cell is not inherited from the row above.** On a row that is not done, it is the "No Case specified" error (`aida-pat-anonexcel.py:225-226`).
- **Ignored rows are not saved.** The loop re-marks and saves done rows only. It passes over ignored rows without a save (`aida-pat-anonexcel.py:246-251`).
- **Inserted rows leave the last column empty.** They copy columns 7 to `max_column - 1` of the original row, because `range(7, ws.max_column)` stops before `max_column` (`aida-pat-anonexcel.py:160-162`).

## Model

| member | source | states |
|---|---|---|
| Ledger.CheckCells | aida-pat-anonexcel.py:62-67 | Header cells are compared in order. The sheet is accepted exactly when every cell holds its label. Otherwise the error names the first mismatching cell, on that cell's row number. |
| Ledger.CheckWorksheet | aida-pat-anonexcel.py:53-67 | The sheet is accepted exactly when D1 holds the title and A12..F12 hold Status, Case, OrigFile, AnonID, Block and Stain. Every rejection is an "unsupported format" error on row 1 or 12. A wrong title is reported first, with the value found. |
| Ledger.CaseIdStripsOnce | aida-pat-anonexcel.py:168-171 | `get_caseid` removes exactly one trailing ".zip". A name ending in ".zip" is its case id plus ".zip". Any other name is its own case id. |
| Ledger.BarcodeFields | aida-pat-anonexcel.py:102-103 | When no field contains ';', splitting a barcode at ';' gives back AnonID, AnonID, Block and Stain. |
| Ledger.BarcodeInjective | aida-pat-anonexcel.py:102-103 | Distinct (AnonID, Block, Stain) triples free of ';' have distinct barcodes. |
| Text.SplitJoin | aida-pat-anonexcel.py:119 | `str.split(c)` gives one more field than there are `c` in the string. No field contains `c`. Joining the fields with `c` restores the string. |
| Text.JoinSplit | aida-pat-anonexcel.py:119 | Splitting a join of `c`-free fields at `c` gives the fields back. |
| Text.BasenameIsLastComponent | aida-pat-anonexcel.py:236 | `os.path.basename` gives a suffix of the path that holds no '/'. When it is shorter than the path, a '/' comes right before it. |
| Text.BasenameOfJoin | aida-pat-anonexcel.py:253-254 | Joining a directory and a name without '/' and then taking the basename gives the name back. This holds for an empty directory, for one ending in '/', and for any other. |
| Text.ExtensionOfName | aida-pat-anonexcel.py:105-107 | For a name without '/' and a suffix without '.' or '/', `os.path.splitext` gives "." + suffix. The exception is a stem made only of dots: such a name is hidden and has no extension. |
| Text.ExtensionExamples | aida-pat-anonexcel.py:105-107 | "a.svs" and "a.b.svs" have the extension ".svs". "a" has none. |
| Text.ExtensionOfHiddenName | aida-pat-anonexcel.py:105-107 | ".svs" and "..svs" have no extension. |
| Text.ExtensionInDirectory | aida-pat-anonexcel.py:105-107 | A dot in a directory name gives no extension to the file below it: "d.x/f" has none. |
| Text.BeforeLastSplits | aida-pat-anonexcel.py:285 | `rsplit(c, 1)[0]` is the text before the last `c`, and no `c` follows the cut. Without a `c`, it is the whole string. |
| AnonIds.ParseAnonId | aida-pat-anonexcel.py:173-180 | An AnonID is accepted exactly when it ends in a digit. It splits into a prefix not ending in a digit and the maximal trailing digit run. Otherwise the error is "must end with a zero padded number". |
| AnonIds.ParseAnonIdUnique | aida-pat-anonexcel.py:173-180 | A prefix not ending in a digit, followed by a digit run, parses back to exactly that prefix and that run's width. |
| AnonIds.ConformsIffRendered | aida-pat-anonexcel.py:75-90 | The AnonIDs a format admits are exactly prefix + zero-padded n, for 0 < n < 10^digits. The number read back is n. |
| AnonIds.ValidateAnonIdNumber | aida-pat-anonexcel.py:75-90 | Accepts exactly the AnonIDs that conform to the format and whose number is at least the previous one, and returns that number. A malformed AnonID gives the "must start with Prefix" error. A smaller number gives the "must not be less than the previous" error. |
| AnonIds.RenderedAccepted | aida-pat-anonexcel.py:75-90 | Every rendering of an admissible number at or above the previous one is accepted and yields that number. |
| AnonIds.ValidateIdMapping | aida-pat-anonexcel.py:92-100 | Succeeds exactly when each id is unmapped, mapped to an empty string, or mapped to its partner. The AnonID clash is reported before the Case clash, naming the earlier partner. On success both maps gain the pair and keep every old entry. |
| AnonIds.MappingUpdates | aida-pat-anonexcel.py:92-100 | With no empty ids stored, an accepted pair is written into both maps and nothing else changes. |
| AnonIds.MappingKeepsInverse | aida-pat-anonexcel.py:92-100 | For mutually inverse maps, the check succeeds exactly when neither id has another partner. The updated maps are still mutual inverses. |
| Validation.CheckStatus | aida-pat-anonexcel.py:198-209 | A status is accepted exactly when it is empty, or "done" with AnonID, Block and Stain present and a new barcode. Each failure gives its own error: unknown status, missing fields, or duplicate barcode with the earlier row. The barcode table gains exactly this row's barcode. |
| Validation.CheckAnonId | aida-pat-anonexcel.py:210-214 | A missing AnonID is the "No AnonID given" error. The first AnonID fixes the format that `parse_anonid` reads from it; one without a trailing number is the "must end with a zero padded number" error. Given the format, the row is accepted exactly when its AnonID conforms to it and its number is not below the previous row's. It then returns that format and that number. Otherwise the error is the one `validate_anonid_number` gives: "must start with Prefix" or "must not be less than the previous". |
| Validation.AnonIdStep | aida-pat-anonexcel.py:210-214 | Against the rows above it, the AnonID check succeeds exactly when the row's AnonID is acceptable there. It returns the format of the ledger's first AnonID and this row's number in it. |
| Validation.CheckCase | aida-pat-anonexcel.py:215-226 | A row without a case id is accepted exactly when it is done; otherwise it is "No Case specified". A row with a case id is accepted exactly when all of these hold: the id mapping admits the pair both ways; a case id seen before is allowed only on a done row after an earlier done row of that case; a row that is not done has empty OrigFile, Block and Stain. The errors come in that order: the mapping clash that `validate_id_mapping` reports, then the repeated case with the row it was last seen on, then the garbage in OrigFile/Block/Stain. Format and number are carried into the tally. |
| Validation.CaseVerdict | aida-pat-anonexcel.py:215-226 | For a tally that records the rows above, the case check succeeds exactly when the row is acceptable. A row without a case id must be done. Otherwise every earlier row that takes part and has a case id must share this row's AnonID exactly when it shares its case id. A case id seen above is allowed only on a done row after a done row of that case. A row that is not done must have empty OrigFile, Block and Stain. |
| Validation.RowStep | aida-pat-anonexcel.py:191-226 | For a tally that records the rows above, one iteration succeeds exactly when the row is acceptable below them, and the tally it returns records the rows with this one added. |
| Validation.ValidateRow | aida-pat-anonexcel.py:191-226 | An ignored row leaves the tally unchanged. An unknown status or a missing AnonID on any other row is an error. |
| Validation.ScanCharacterized | aida-pat-anonexcel.py:182-227 | The row-by-row pass succeeds exactly on ledgers in which every row is acceptable below the rows above it. Its tally then holds the done barcodes, the case ids, the inverse AnonID maps, the format and the last number. |
| Validation.ScanRejects | aida-pat-anonexcel.py:182-227 | A failing pass reports row 13 + k. Row k is not acceptable below the rows above it, and those rows form a valid ledger. |
| Validation.ValidateAnonymizationData | aida-pat-anonexcel.py:182-227 | Validation succeeds exactly on valid ledgers and returns the set of barcodes of the done rows. On failure the error names the first row that is not acceptable below the rows above it, and those rows form a valid ledger. |
| Slides.SlideFiles | aida-pat-anonexcel.py:105-107 | The slide files of a directory are exactly its files whose extension is ".svs" or ".ndpi", in listing order. |
| Slides.SlideFilesAppend | aida-pat-anonexcel.py:105-107 | Filtering keeps listing order: the slide files of two listings in a row are those of the first followed by those of the second. |
| Slides.SlideFilesSingle | aida-pat-anonexcel.py:105-107 | A single file is kept exactly when its extension is ".svs" or ".ndpi". |
| Slides.SlideOf | aida-pat-anonexcel.py:115-126 | A directory name without '_' is rejected with the BLOCK_STAIN message, naming the case. A name that splits at '_' into block and stain, in a directory that does not hold exactly one slide file, is rejected with the "Expected 1 slide file" message, naming the case and listing the slide files found. |
| Slides.SlideOfCharacterized | aida-pat-anonexcel.py:115-126 | A slide directory yields a slide exactly when its name has one '_' and it holds exactly one slide file. Block and stain are the two halves of the name. The path is that file's inside the directory. A name with two or more '_' fails the split. A name with exactly one '_' in a directory without exactly one slide file gives the "Expected 1 slide file" error with the files found. |
| Slides.GetSlides | aida-pat-anonexcel.py:113-127 | All slide directories yield slides, in listing order, or the error is that of the first directory that does not. |
| Processing.AnonymizeSlides | aida-pat-anonexcel.py:268-271 | Slides are anonymised in order with their barcodes. The first non-zero exit stops the sequence with an error naming the exact command. The error is absent exactly when no command fails. |
| Processing.UpdateSpreadsheet | aida-pat-anonexcel.py:150-163 | The pending row becomes one "Done" row per slide, carrying case, file, AnonID, block and stain. Rows above and below are kept. The first row keeps its further columns. Inserted rows copy columns 7 to max_column - 1 of the original row and leave the rest empty. |
| Processing.PendingStep | aida-pat-anonexcel.py:253-271 | A pending row stops the run without an error exactly when its case is missing from the work directory. The halt names the row and the case and invokes nothing. A present case goes on to the case step. Any other stop is a failure on this row. A successful step has anonymised each of its one or more slides once, in order. |
| Processing.CaseStep | aida-pat-anonexcel.py:259-271 | A present case fails, in this order, on an unreadable case directory, then on the error of `get_slides`, then on "No slides present", then on the first failing anonymiser command, with the invocations made so far. It expands exactly when none of these happens, and its slides are then exactly those `get_slides` found. |
| Processing.Process | aida-pat-anonexcel.py:234-280 | The loop never shortens the spreadsheet. It keeps the header, `max_column` and the rows above its starting point. |
| Processing.PassesOverStatusRow | aida-pat-anonexcel.py:246-251 | A row with a status is passed over. The loop ends as it does from the next row, after one more save when the row is done. |
| Processing.KeepsStatusRows | aida-pat-anonexcel.py:246-251 | A run of rows with a status is passed over unchanged. The loop ends as it does from the first row without one, and every row above that row keeps its value. |
| Processing.ExpandsPendingRow | aida-pat-anonexcel.py:259-275 | An expanded pending row first has the anonymiser invoked once per slide, in order, with its barcode. Then the expanded workbook is saved, and the loop goes on below the inserted rows with the slides' barcodes added. The final spreadsheet records each slide as "Done" on the row it was written to. |
| Processing.StopsAtPendingStep | aida-pat-anonexcel.py:253-271 | A pending row whose step stops ends the loop there. The spreadsheet and barcodes are unchanged, and the trace holds only the step's invocations. |
| Processing.Anonymize | aida-pat-anonexcel.py:229-236 | A bad header or an invalid ledger fails before anything is invoked or saved. A sheet that passes both checks goes through the loop from row 13 with the barcodes of its done rows. A run that does not fail returns the done barcodes plus every barcode the anonymiser was invoked with. |
| Processing.BarcodesAccumulate | aida-pat-anonexcel.py:266-271 | Unless the loop fails, its barcodes are the initial ones plus every barcode in its anonymiser invocations. |
| Processing.NoPendingNoInvoke | aida-pat-anonexcel.py:246-251 | With no pending row left, the loop finishes, changes nothing, invokes nothing, and only saves the unchanged workbook. |
| Processing.FinishedLeavesNoPending | aida-pat-anonexcel.py:234-275 | A loop that finishes leaves no pending row behind its starting point. |
| Processing.FinishedRerun | aida-pat-anonexcel.py:234-280 | Rerunning the loop on a finished spreadsheet, in any environment, finishes with no anonymiser invocation and no change. |
| Processing.AnonymizeRerun | aida-pat-anonexcel.py:229-280 | Running the whole anonymisation again on a finished run's spreadsheet invokes the anonymiser for nothing. The rerun either finishes and leaves that spreadsheet as it is, or fails in the header or ledger check before the loop, with nothing done. |
| Processing.AnonymizedRecorded | aida-pat-anonexcel.py:266-275 | In a run that does not fail, every anonymiser invocation is recorded on or below its row as a "Done" row with its file and its barcode. |
| Processing.StopsAtPendingRow | aida-pat-anonexcel.py:246-271 | A loop that halts or fails stops at a pending row of its final spreadsheet. Every row between the start and that row has a status. That row and all rows below it are those the loop was given. A halt names that row's case, which is missing from the work directory. |
| Processing.InvokesFromStart | aida-pat-anonexcel.py:234-280 | The loop from a given row invokes the anonymiser for no row above it. |
| Processing.SkipsStatusRows | aida-pat-anonexcel.py:246-251 | Rows with a status are passed over: the anonymiser is invoked for no row above the first row without one. |
| Processing.StoppedRerun | aida-pat-anonexcel.py:234-280 | Rerunning the loop, in any environment, on the spreadsheet a halted or failed loop left invokes the anonymiser for no row above the row where it stopped. |
| Processing.AnonymizeResumes | aida-pat-anonexcel.py:229-280 | Running the whole anonymisation again on the spreadsheet a stopped run of a valid ledger left invokes the anonymiser for no row above the row where the first run stopped. |
| Processing.SavedWorkbook | aida-pat-anonexcel.py:246-274 | However the loop ends, its final spreadsheet is the workbook it saved last, or the one it started from when it saved nothing. |
| Processing.ZeroSlidesFail | aida-pat-anonexcel.py:265-267 | A case directory without slide directories fails with "No slides present", before any invocation. |
| Garbage.GetGarbage | aida-pat-anonexcel.py:282-288 | The loop returns the reference selection. A file is listed exactly when it is in the directory and its barcode is unknown. |
| Garbage.OrphansMembers | aida-pat-anonexcel.py:282-288 | A file is garbage exactly when it is listed and the text before its last '_' is not a known barcode. |
| Garbage.OrphansAppend | aida-pat-anonexcel.py:282-288 | The selection keeps listing order: the garbage of two listings in a row is the garbage of each, concatenated. |
| Garbage.NamedFileGarbage | aida-pat-anonexcel.py:285-287 | A file named barcode, '_', then a tail without '_' is garbage exactly when that barcode is unknown. |

## Left out

- **Command line, defaults and messages** (`aida-pat-anonexcel.py:24-49`, `290-326`): argument parsing, the default directories, the creation of directories, printed messages and the exit code.
- **Cell styling** (`mark_red`, `mark_ok`, `mark_done`): it changes fills and fonts, never values. The model records the workbook saves in the trace but no styles.
- **Reading cells:**
  - Cell values are modelled as already stripped strings, so `str(value or '').strip()` is not modelled.
  - The first data row is 13. Spreadsheet row `13 + k` is index `k` of the row sequence.
  - `max_row` is the length of that sequence.
- **File system and subprocess:**
  - Existence of paths, directory listings and the anonymiser's exit status are inputs of the environment.
  - What `anonymize_wsi` writes into the output directory is not modelled. The garbage check takes the output directory's listing as its input.
- **Zip archives:** unpacking (`zipfile.extractall`) and removal (`shutil.rmtree`) are not modelled. For a zip case, slides are read from the listing of the unpacked directory.
- **Directory walk order:** `os.walk` returns directories and files in an order the file system decides. The listing is taken in the order given.
- **Failures the script does not catch become errors:**
  - A slide directory name with two or more '_' makes the script's unpacking raise `ValueError`. It is modelled as the error `SlideDirSplit`.
  - `os.walk` on a directory that cannot be read raises `StopIteration`. It is modelled as the error `CaseDirUnreadable`.
  - Either way the run ends, as in the script.
- **Barcodes of a failed run:** after a failure the script returns no barcodes, so a failed run's barcode set carries no meaning.
- **Python's `int()`:** its leniency (signs, underscores, surrounding spaces and non-ASCII digits) is not modelled. A number is a run of ASCII digits.
- **Path functions:** POSIX paths only. `os.path.basename` splits at '/'. `os.path.join` of two parts follows the POSIX rules: a second part starting with '/' replaces the first, and no '/' is added after a first part that is empty or ends in '/'.
- Processing.AnonymizeRerun: does not promise that the rerun finishes. A done row with a blank Case skips the pairing of case ids and AnonIDs (`aida-pat-anonexcel.py:215`, `225-226`). A pending row with the same AnonID can then anonymise a slide to that row's barcode, for example a done row with AnonID P001, Block A and Stain HE, and a pending case whose slide directory is `A_HE`. The first run accepts both. The rerun sees the barcode twice and stops with the duplicate barcode error (`aida-pat-anonexcel.py:206-208`).
- Validation.Active: letter case is folded for ASCII letters only, where Python's `str.lower` also folds other alphabets. The statuses "done" and "ignore" are unaffected.

=== FILE: anonids.dfy ===
/** AnonIDs: the format the first AnonID fixes, the check every AnonID
    must pass against it, and the two-way map between case ids and AnonIDs.
 */
module AnonIds {
  import opened Outcomes
  import opened Text

  /** An AnonID format: a fixed prefix followed by `digits` decimal digits. */
  datatype Format = Format(prefix: string, digits: nat)

  /** The format an AnonID implies: all but its trailing run of digits as
      the prefix, and the length of that run as the width. */
  function FormatOf(anonid: string): Format {
    var n := TrailingDigits(anonid);
    Format(anonid[..|anonid| - n], n)
  }

  /** `parse_anonid`: an AnonID must end in a digit; it is then split into
      a prefix that does not end in a digit and the digit run after it. */
  function ParseAnonId(row: int, anonid: string): (r: Result<Format>)
    ensures r.Ok? <==> |anonid| > 0 && IsDigit(anonid[|anonid| - 1])
    ensures r.Ok? ==> (r.value.digits >= 1
      && StartsWith(anonid, r.value.prefix)
      && |anonid| == |r.value.prefix| + r.value.digits
      && AllDigits(anonid[|r.value.prefix|..])
      && (|r.value.prefix| > 0 ==> !IsDigit(r.value.prefix[|r.value.prefix| - 1])))
    ensures r.Err? ==> r.error == Error(row, AnonIdNoNumber(anonid))
  {
    var f := FormatOf(anonid);
    if f.digits == 0 then Err(Error(row, AnonIdNoNumber(anonid))) else Ok(f)
  }

  /** The split is the only one with a non-empty digit run and a prefix
      that does not end in a digit. */
  lemma ParseAnonIdUnique(row: int, prefix: string, run: string)
    requires |run| > 0 && AllDigits(run)
    requires |prefix| > 0 ==> !IsDigit(prefix[|prefix| - 1])
    ensures ParseAnonId(row, prefix + run) == Ok(Format(prefix, |run|))
  {
    var a := prefix + run;
    var r := ParseAnonId(row, a);
    assert a[|a| - 1] == run[|run| - 1];
    var n := r.value.digits;
    if n < |run| {
      assert false;
    } else if n > |run| {
      DigitInRun(a, |a| - n, |prefix| - 1);
      assert false;
    }
    assert a[..|a| - n] == prefix;
  }

  lemma DigitInRun(s: string, from: nat, k: nat)
    requires from <= k < |s| && AllDigits(s[from..])
    ensures IsDigit(s[k])
  {
    assert s[from..][k - from] == s[k];
  }

  /** The AnonIDs a format admits: the prefix, then exactly `digits`
      digits denoting a number above zero. */
  predicate Conforms(anonid: string, f: Format) {
    && StartsWith(anonid, f.prefix)
    && |anonid| == |f.prefix| + f.digits
    && AllDigits(anonid[|f.prefix|..])
    && DecimalValue(anonid[|f.prefix|..]) > 0
  }

  /** The number an AnonID carries under a format, or -1 when it does not
      conform. */
  function AnonNumber(anonid: string, f: Format): int {
    if Conforms(anonid, f) then DecimalValue(anonid[|f.prefix|..]) else -1
  }

  /** The AnonID with number `n` in format `f`. */
  function Render(f: Format, n: nat): string {
    f.prefix + ZeroPad(n, f.digits)
  }

  /** The conforming AnonIDs are exactly the renderings of the numbers
      1 .. 10^digits - 1. */
  lemma ConformsIffRendered(anonid: string, f: Format)
    ensures Conforms(anonid, f) ==>
      0 < AnonNumber(anonid, f) < Pow10(f.digits) && anonid == Render(f, AnonNumber(anonid, f))
    ensures forall n: nat :: 0 < n < Pow10(f.digits) && anonid == Render(f, n) ==>
      Conforms(anonid, f) && AnonNumber(anonid, f) == n
  {
    if Conforms(anonid, f) {
      var suffix := anonid[|f.prefix|..];
      DecimalRoundTrip(suffix);
      DecimalValueBound(suffix);
      assert anonid == f.prefix + suffix;
    }
    forall n: nat | 0 < n < Pow10(f.digits) && anonid == Render(f, n)
      ensures Conforms(anonid, f) && AnonNumber(anonid, f) == n
    {
      ZeroPadRoundTrip(n, f.digits);
      assert anonid[|f.prefix|..] == ZeroPad(n, f.digits);
    }
  }

  /** `validate_anonid_number`: accepts an AnonID that conforms to the
      format and whose number is at least `previous`, and returns that
      number; a non-conforming AnonID and a decreasing number are errors. */
  function ValidateAnonIdNumber(row: int, anonid: string, f: Format, previous: int): (r: Result<int>)
    ensures r.Ok? <==> Conforms(anonid, f) && AnonNumber(anonid, f) >= previous
    ensures r.Ok? ==> r.value == AnonNumber(anonid, f)
    ensures r.Ok? ==> previous <= r.value && 0 < r.value < Pow10(f.digits) && anonid == Render(f, r.value)
    ensures !Conforms(anonid, f) ==> r == Err(Error(row, AnonIdMalformed(anonid, f.prefix, f.digits)))
    ensures Conforms(anonid, f) && AnonNumber(anonid, f) < previous ==>
      r == Err(Error(row, AnonIdDecreased(AnonNumber(anonid, f), previous)))
  {
    var suffix := if |f.prefix| <= |anonid| then anonid[|f.prefix|..] else "";
    var parsed := if |suffix| > 0 && AllDigits(suffix) then DecimalValue(suffix) else -1;
    var number :=
      if StartsWith(anonid, f.prefix) && parsed > 0 && |anonid| == |f.prefix| + f.digits then parsed else -1;
    if number < 0 then Err(Error(row, AnonIdMalformed(anonid, f.prefix, f.digits)))
    else if number < previous then Err(Error(row, AnonIdDecreased(number, previous)))
    else
      ConformsIffRendered(anonid, f);
      Ok(number)
  }

  /** Every rendering of an admissible number passes the check and yields
      that number back. */
  lemma RenderedAccepted(row: int, f: Format, n: nat, previous: int)
    requires 0 < n < Pow10(f.digits) && previous <= n
    ensures ValidateAnonIdNumber(row, Render(f, n), f, previous) == Ok(n)
  {
    ConformsIffRendered(Render(f, n), f);
  }

  /** `dict.setdefault`: maps `k` to `v` unless `k` is already mapped. */
  function SetDefault(m: map<string, string>, k: string, v: string): map<string, string> {
    if k in m then m else m[k := v]
  }

  /** `k` may be mapped to `v`: it is unmapped, mapped to `v` already, or
      mapped to an empty string (which `setdefault` leaves in place and the script treats as unmapped). */
  predicate Admits(m: map<string, string>, k: string, v: string) {
    k !in m || m[k] == "" || m[k] == v
  }

  /** `validate_id_mapping`: records the pair (case id, AnonID) in both
      directions, failing when the AnonID already belongs to another case
      or the case already has another AnonID. `caseids` maps AnonIDs to
      case ids and `anonids` case ids to AnonIDs; the result is the pair
      of updated maps in the same order. */
  function ValidateIdMapping(row: int, caseid: string, anonid: string,
                             caseids: map<string, string>, anonids: map<string, string>)
    : (r: Result<(map<string, string>, map<string, string>)>)
    ensures r.Ok? <==> Admits(caseids, anonid, caseid) && Admits(anonids, caseid, anonid)
    ensures !Admits(caseids, anonid, caseid) ==>
      r == Err(Error(row, AnonIdTaken(caseid, anonid, caseids[anonid])))
    ensures Admits(caseids, anonid, caseid) && !Admits(anonids, caseid, anonid) ==>
      r == Err(Error(row, CaseTaken(caseid, anonid, anonids[caseid])))
    ensures r.Ok? ==> r.value.0.Keys == caseids.Keys + {anonid} && r.value.1.Keys == anonids.Keys + {caseid}
    ensures r.Ok? ==> forall a :: a in caseids ==> r.value.0[a] == caseids[a]
    ensures r.Ok? ==> forall c :: c in anonids ==> r.value.1[c] == anonids[c]
    ensures r.Ok? && anonid !in caseids ==> r.value.0[anonid] == caseid
    ensures r.Ok? && caseid !in anonids ==> r.value.1[caseid] == anonid
  {
    var existingCase := if anonid in caseids then caseids[anonid] else caseid;
    var caseids' := SetDefault(caseids, anonid, caseid);
    if existingCase != "" && existingCase != caseid then
      Err(Error(row, AnonIdTaken(caseid, anonid, existingCase)))
    else
      var existingAnonId := if caseid in anonids then anonids[caseid] else anonid;
      var anonids' := SetDefault(anonids, caseid, anonid);
      if existingAnonId != "" && existingAnonId != anonid then
        Err(Error(row, CaseTaken(caseid, anonid, existingAnonId)))
      else
        Ok((caseids', anonids'))
  }

  /** When neither map holds an empty id, an accepted pair is written into
      both maps, replacing nothing but itself. */
  lemma MappingUpdates(row: int, caseid: string, anonid: string,
                       caseids: map<string, string>, anonids: map<string, string>)
    requires NoEmptyValues(caseids) && NoEmptyValues(anonids)
    requires ValidateIdMapping(row, caseid, anonid, caseids, anonids).Ok?
    ensures ValidateIdMapping(row, caseid, anonid, caseids, anonids).value
      == (caseids[anonid := caseid], anonids[caseid := anonid])
  {
    if anonid in caseids {
      assert caseids[anonid := caseid] == caseids;
    }
    if caseid in anonids {
      assert anonids[caseid := anonid] == anonids;
    }
  }

  /** The two maps are mutual inverses. */
  predicate Inverse(caseids: map<string, string>, anonids: map<string, string>) {
    && (forall a :: a in caseids ==> caseids[a] in anonids && anonids[caseids[a]] == a)
    && (forall c :: c in anonids ==> anonids[c] in caseids && caseids[anonids[c]] == c)
  }

  predicate NoEmptyValues(m: map<string, string>) {
    forall k :: k in m ==> m[k] != ""
  }

  /** With mutually inverse maps and non-empty ids, the mapping check
      succeeds exactly when neither id is taken by another partner; the
      maps then hold the pair, are still mutual inverses, and no other
      entry changes. */
  lemma MappingKeepsInverse(row: int, caseid: string, anonid: string,
                            caseids: map<string, string>, anonids: map<string, string>)
    requires Inverse(caseids, anonids)
    requires NoEmptyValues(caseids) && NoEmptyValues(anonids)
    requires caseid != "" && anonid != ""
    ensures ValidateIdMapping(row, caseid, anonid, caseids, anonids).Ok? <==>
      (anonid in caseids ==> caseids[anonid] == caseid) && (caseid in anonids ==> anonids[caseid] == anonid)
    ensures ValidateIdMapping(row, caseid, anonid, caseids, anonids).Ok? ==>
      var (caseids', anonids') := ValidateIdMapping(row, caseid, anonid, caseids, anonids).value;
      && caseids' == caseids[anonid := caseid]
      && anonids' == anonids[caseid := anonid]
      && Inverse(caseids', anonids')
      && NoEmptyValues(caseids') && NoEmptyValues(anonids')
  {
    var r := ValidateIdMapping(row, caseid, anonid, caseids, anonids);
    if r.Ok? {
      var (caseids', anonids') := r.value;
      assert caseids' == caseids[anonid := caseid];
      assert anonids' == anonids[caseid := anonid];
      if anonid in caseids {
        assert caseid in anonids;
      }
    }
  }
}

=== FILE: garbage.dfy ===
/** `get_garbage`: the files in the output directory that belong to no
    barcode the run knows of. A file's barcode is its name up to the last
    '_'; a name without '_' is its own barcode.
 */
module Garbage {
  import opened Text

  /** `filename.rsplit('_', 1)[0]`. */
  function FileBarcode(name: string): string {
    BeforeLast(name, '_')
  }

  /** The reference: the files whose barcode is unknown, in listing order. */
  function Orphans(files: seq<string>, barcodes: set<string>): seq<string> {
    if |files| == 0 then []
    else
      var f := files[|files| - 1];
      Orphans(files[..|files| - 1], barcodes) + if FileBarcode(f) in barcodes then [] else [f]
  }

  /** `get_garbage`, as the loop the script runs. */
  method GetGarbage(files: seq<string>, barcodes: set<string>) returns (garbage: seq<string>)
    ensures garbage == Orphans(files, barcodes)
    ensures forall f :: f in garbage <==> f in files && FileBarcode(f) !in barcodes
  {
    garbage := [];
    for i := 0 to |files|
      invariant garbage == Orphans(files[..i], barcodes)
    {
      assert files[..i + 1][..i] == files[..i];
      if FileBarcode(files[i]) !in barcodes {
        garbage := garbage + [files[i]];
      }
    }
    assert files[..|files|] == files;
    OrphansMembers(files, barcodes);
  }

  /** A file is garbage exactly when it is listed and its barcode is
      unknown. */
  lemma {:induction false} OrphansMembers(files: seq<string>, barcodes: set<string>)
    ensures forall f :: f in Orphans(files, barcodes) <==> f in files && FileBarcode(f) !in barcodes
  {
    if |files| > 0 {
      var init := files[..|files| - 1];
      OrphansMembers(init, barcodes);
      assert files == init + [files[|files| - 1]];
    }
  }

  /** The selection keeps listing order: the garbage of two listings one
      after the other is the garbage of the first followed by that of the
      second. */
  lemma {:induction false} OrphansAppend(a: seq<string>, b: seq<string>, barcodes: set<string>)
    ensures Orphans(a + b, barcodes) == Orphans(a, barcodes) + Orphans(b, barcodes)
    decreases |b|
  {
    if |b| == 0 {
      assert a + b == a;
    } else {
      var init := b[..|b| - 1];
      OrphansAppend(a, init, barcodes);
      assert (a + b)[..|a + b| - 1] == a + init;
    }
  }

  /** A file named after a barcode followed by '_' and a tail without '_'
      is garbage exactly when that barcode is unknown. */
  lemma NamedFileGarbage(barcode: string, tail: string, barcodes: set<string>)
    requires '_' !in tail
    ensures Orphans([barcode + "_" + tail], barcodes) == if barcode in barcodes then [] else [barcode + "_" + tail]
  {
    var name := barcode + "_" + tail;
    LastIndexIsLast(name, '_');
    assert name[|barcode|] == '_';
    assert forall j :: |barcode| < j < |name| ==> name[j] == tail[j - |barcode| - 1];
    assert LastIndex(name, '_') == |barcode|;
    assert name[..|barcode|] == barcode;
    assert FileBarcode(name) == barcode;
    assert [name][..0] == [];
  }
}

=== FILE: ledger.dfy ===
/** The anonymisation spreadsheet: its header, its data rows from row 13
    on, and the values derived from a row (case id and barcode).
 */
module Ledger {
  import opened Outcomes
  import opened Text

  /** Spreadsheet row number of the first data row; data row `k` of a
      sheet (0-based) is spreadsheet row `FirstDataRow + k`. */
  const FirstDataRow: int := 13

  /** One data row. The six named columns hold the cell text with
      surrounding white space already stripped; `extras` holds columns 7
      and up, in column order, an empty cell being "". */
  datatype Row = Row(
    status: string,
    caseRef: string,
    origfile: string,
    anonid: string,
    block: string,
    stain: string,
    extras: seq<string>)

  /** The active worksheet: the header cells by name (a missing name is an
      empty cell), the data rows, and the sheet's `max_column`. */
  datatype Sheet = Sheet(header: map<string, string>, rows: seq<Row>, maxColumn: nat)

  /** The text of column `c` (1-based) of a row. */
  function Column(r: Row, c: nat): string {
    if c == 1 then r.status
    else if c == 2 then r.caseRef
    else if c == 3 then r.origfile
    else if c == 4 then r.anonid
    else if c == 5 then r.block
    else if c == 6 then r.stain
    else if 7 <= c < 7 + |r.extras| then r.extras[c - 7]
    else ""
  }

  /** `get_caseid`: the case name with one trailing ".zip" removed. */
  function CaseId(name: string): string {
    if EndsWith(name, ".zip") then name[..|name| - 4] else name
  }

  /** Exactly one ".zip" is removed: a name is its case id followed by
      ".zip" or is its own case id, and a case id of a ".zip" name keeps
      any further ".zip" it ends with. */
  lemma CaseIdStripsOnce(name: string, id: string)
    ensures EndsWith(name, ".zip") ==> CaseId(name) + ".zip" == name
    ensures !EndsWith(name, ".zip") ==> CaseId(name) == name
    ensures CaseId(id + ".zip") == id
  {
    assert (id + ".zip")[|id|..] == ".zip";
    if EndsWith(name, ".zip") {
      assert name == name[..|name| - 4] + name[|name| - 4..];
    }
  }

  /** The case id of a row: the basename of its Case cell, ".zip" removed. */
  function CaseIdOf(r: Row): string {
    CaseId(Basename(r.caseRef))
  }

  /** `get_barcode`: the label the anonymiser writes into a slide. */
  function Barcode(anonid: string, block: string, stain: string): string {
    anonid + ";" + anonid + ";" + block + ";" + stain
  }

  function BarcodeOf(r: Row): string {
    Barcode(r.anonid, r.block, r.stain)
  }

  /** A barcode splits back into its four fields when none of them
      contains the separator. */
  lemma BarcodeFields(anonid: string, block: string, stain: string)
    requires ';' !in anonid && ';' !in block && ';' !in stain
    ensures Split(Barcode(anonid, block, stain), ';') == [anonid, anonid, block, stain]
  {
    var fs := [anonid, anonid, block, stain];
    assert Join(fs, ';') == Barcode(anonid, block, stain) by {
      assert fs[..1] == [anonid] && fs[..2] == [anonid, anonid] && fs[..3] == [anonid, anonid, block];
      assert Join(fs[..2], ';') == anonid + ";" + anonid;
      assert fs[..3][..2] == fs[..2] && fs[..3][2] == block;
      assert Join(fs[..3], ';') == anonid + ";" + anonid + ";" + block;
    }
    JoinSplit(fs, ';');
  }

  /** Hence distinct (AnonID, Block, Stain) triples without ';' give
      distinct barcodes. */
  lemma BarcodeInjective(a: string, b: string, s: string, a': string, b': string, s': string)
    requires ';' !in a && ';' !in b && ';' !in s
    requires ';' !in a' && ';' !in b' && ';' !in s'
    requires Barcode(a, b, s) == Barcode(a', b', s')
    ensures a == a' && b == b' && s == s'
  {
    BarcodeFields(a, b, s);
    BarcodeFields(a', b', s');
  }

  /** The header cells `check_worksheet` compares, in the order it checks
      them, with the label each must hold. */
  const HeaderLabels: seq<(string, string)> := [
    ("D1", "AIDA Pathology Anonymization Sheet"),
    ("A12", "Status"),
    ("B12", "Case"),
    ("C12", "OrigFile"),
    ("D12", "AnonID"),
    ("E12", "Block"),
    ("F12", "Stain")
  ]

  predicate CellName(cell: string) {
    |cell| >= 2 && AllDigits(cell[1..])
  }

  /** `int(cell[1:])`: the row number in a cell name such as "D12". */
  function CellRow(cell: string): nat
    requires CellName(cell)
  {
    DecimalValue(cell[1..])
  }

  /** Every header cell names a row: the title is on row 1, the column
      labels on row 12. */
  lemma HeaderCellRows()
    ensures forall k :: 0 <= k < |HeaderLabels| ==> CellName(HeaderLabels[k].0)
    ensures CellRow(HeaderLabels[0].0) == 1
    ensures forall k :: 1 <= k < |HeaderLabels| ==> CellRow(HeaderLabels[k].0) == 12
  {
    assert "D1"[1..] == "1";
    assert "A12"[1..] == "12" && "B12"[1..] == "12" && "C12"[1..] == "12";
    assert "D12"[1..] == "12" && "E12"[1..] == "12" && "F12"[1..] == "12";
    assert DecimalValue("1") == 1;
    assert DecimalValue("12") == 12 by {
      assert "12"[..1] == "1";
    }
  }

  predicate Holds(header: map<string, string>, cell: string, expected: string) {
    cell in header && header[cell] == expected
  }

  function Mismatch(header: map<string, string>, cell: string, expected: string): Error
    requires CellName(cell)
  {
    Error(CellRow(cell), UnsupportedFormat(cell, expected, if cell in header then Some(header[cell]) else None))
  }

  /** The position of the first cell that does not hold its label, or the
      number of cells when all do. */
  function FirstUnheld(header: map<string, string>, cells: seq<(string, string)>): (k: nat)
    ensures k <= |cells|
    ensures forall m :: 0 <= m < k ==> Holds(header, cells[m].0, cells[m].1)
    ensures k < |cells| ==> !Holds(header, cells[k].0, cells[k].1)
  {
    if |cells| == 0 then 0
    else if !Holds(header, cells[0].0, cells[0].1) then 0
    else
      var k := FirstUnheld(header, cells[1..]);
      assert forall m :: 1 <= m < |cells| ==> cells[1..][m - 1] == cells[m];
      k + 1
  }

  /** Compares the cells in order and reports the first one that does not
      hold its label. */
  function CheckCells(header: map<string, string>, cells: seq<(string, string)>): (r: Result<()>)
    requires forall k :: 0 <= k < |cells| ==> CellName(cells[k].0)
    ensures r.Ok? <==> forall k :: 0 <= k < |cells| ==> Holds(header, cells[k].0, cells[k].1)
    ensures r.Err? ==> exists k :: (0 <= k < |cells|
      && !Holds(header, cells[k].0, cells[k].1)
      && (forall m :: 0 <= m < k ==> Holds(header, cells[m].0, cells[m].1))
      && r.error == Mismatch(header, cells[k].0, cells[k].1))
  {
    var k := FirstUnheld(header, cells);
    if k < |cells| then Err(Mismatch(header, cells[k].0, cells[k].1)) else Ok(())
  }

  /** `check_worksheet`: the sheet is accepted exactly when every header
      cell holds its label; otherwise the error names the first cell that
      does not, on that cell's row (1 for the title, 12 for the columns). */
  function CheckWorksheet(header: map<string, string>): (r: Result<()>)
    ensures r.Ok? <==> forall k :: 0 <= k < |HeaderLabels| ==> Holds(header, HeaderLabels[k].0, HeaderLabels[k].1)
    ensures r.Err? ==> r.error.kind.UnsupportedFormat? && r.error.row in {1, 12}
    ensures !Holds(header, "D1", "AIDA Pathology Anonymization Sheet") ==>
      r == Err(Error(1, UnsupportedFormat("D1", "AIDA Pathology Anonymization Sheet", if "D1" in header then Some(header["D1"]) else None)))
  {
    HeaderCellRows();
    CheckCells(header, HeaderLabels)
  }
}

=== FILE: outcomes.dfy ===
/** Failure-compatible result types and the anonymiser's error values.

    Every error the anonymiser reports is a `ParseError` that carries the
    spreadsheet row it concerns; here that is `Error(row, kind)`, where the
    kind records the values the message would have printed.
 */
module Outcomes {

  datatype Option<+T> = None | Some(value: T)

  /** What went wrong. Each alternative corresponds to one error site. */
  datatype ErrorKind =
    | UnsupportedFormat(cell: string, expected: string, actual: Option<string>)
    | AnonIdNoNumber(anonid: string)
    | AnonIdMalformed(anonid: string, prefix: string, digits: nat)
    | AnonIdDecreased(number: int, previous: int)
    | AnonIdTaken(caseid: string, anonid: string, otherCase: string)
    | CaseTaken(caseid: string, anonid: string, otherAnonId: string)
    | UnknownStatus(status: string)
    | DoneFieldsMissing
    | DuplicateBarcode(barcode: string, otherRow: int)
    | NoAnonId
    | CaseNotUnique(caseid: string, otherRow: int)
    | GarbageColumns
    | NoCase
    | SlideDirUnnamed(slidedir: string, caseName: string)
    | SlideDirSplit(slidedir: string)
    | SlideFileCount(slidedir: string, caseName: string, found: seq<string>)
    | CaseDirUnreadable(casedir: string)
    | NoSlides(caseName: string)
    | AnonymizerFailed(command: seq<string>)

  /** A `ParseError`: the spreadsheet row number and what was wrong there. */
  datatype Error = Error(row: int, kind: ErrorKind)

  datatype Result<+T> = Ok(value: T) | Err(error: Error) {

    predicate IsFailure() {
      Err?
    }

    function PropagateFailure<U>(): Result<U>
      requires Err?
    {
      Err(error)
    }

    function Extract(): T
      requires Ok?
    {
      value
    }
  }
}

=== FILE: processing.dfy ===
/** `anonymize` and `update_spreadsheet`: the resumable pass that
    anonymises the slides of every pending row and records them in the
    spreadsheet.

    The file system and the anonymiser enter as an environment: the paths
    that exist, the sub-directory listing of each readable directory, and
    the anonymiser command lines that exit with a non-zero code. What the
    pass does to the outside world is recorded in a trace: one event per
    anonymiser invocation and one per save of the workbook.
 */
module Processing {
  import opened Outcomes
  import opened Text
  import opened Ledger
  import opened Validation
  import opened Slides

  /** The directories the pass works with: where the cases are, where zip
      archives are unpacked and where anonymised slides are written. */
  datatype Config = Config(basedir: string, tmpdir: string, anondir: string)

  datatype Env = Env(
    paths: set<string>,                     // paths that exist
    listings: map<string, seq<SlideDir>>,   // directory -> its sub-directories
    failing: set<seq<string>>)              // anonymiser commands that fail

  /** The command line `anonymize_slide` runs. */
  function AnonymizeCommand(anondir: string, barcode: string, origfile: string): seq<string> {
    ["anonymize_wsi", "-o", anondir, "-bv", barcode, origfile]
  }

  datatype Event =
    | Anonymized(row: int, origfile: string, barcode: string)  // one anonymiser invocation
    | Saved(snapshot: Sheet)                                   // the workbook written to disk

  datatype Outcome =
    | Finished                              // every row was visited
    | Halted(row: int, caseName: string)    // a pending case is not in the work directory
    | Failed(error: Error)                  // a `ParseError` (or failed command) ended the pass

  /** The result of a pass: how it ended, the spreadsheet in memory at
      that point, the barcodes collected, and what it did. */
  datatype Run = Run(outcome: Outcome, sheet: Sheet, barcodes: set<string>, trace: seq<Event>)

  /** The invocation that anonymises slide `s` of a row with AnonID `anonid`. */
  function SlideEvent(row: int, anonid: string, s: Slide): Event {
    Anonymized(row, s.origfile, Barcode(anonid, s.block, s.stain))
  }

  predicate Fails(env: Env, anondir: string, e: Event)
    requires e.Anonymized?
  {
    AnonymizeCommand(anondir, e.barcode, e.origfile) in env.failing
  }

  /** The position of the first slide whose anonymiser command fails, or
      the number of slides when none does. */
  function FirstFailure(env: Env, row: int, anondir: string, anonid: string, slides: seq<Slide>): (n: nat)
    ensures n <= |slides|
    ensures forall j :: 0 <= j < n ==> !Fails(env, anondir, SlideEvent(row, anonid, slides[j]))
    ensures n < |slides| ==> Fails(env, anondir, SlideEvent(row, anonid, slides[n]))
  {
    if |slides| == 0 then 0
    else if Fails(env, anondir, SlideEvent(row, anonid, slides[0])) then 0
    else
      var n := FirstFailure(env, row, anondir, anonid, slides[1..]);
      assert forall j :: 1 <= j < |slides| ==> slides[1..][j - 1] == slides[j];
      n + 1
  }

  /** The anonymiser is run on the slides in order; the first failing
      command ends the sequence with an error. Returns the invocations made
      and the error, if any. */
  function AnonymizeSlides(env: Env, row: int, anondir: string, anonid: string, slides: seq<Slide>)
    : (r: (seq<Event>, Option<Error>))
    ensures |r.0| <= |slides|
    ensures forall j :: 0 <= j < |r.0| ==> r.0[j] == SlideEvent(row, anonid, slides[j])
    ensures r.1.None? <==> forall j :: 0 <= j < |slides| ==> !Fails(env, anondir, SlideEvent(row, anonid, slides[j]))
    ensures r.1.None? ==> |r.0| == |slides|
    ensures r.1.Some? ==> (|r.0| >= 1
      && (forall j :: 0 <= j < |r.0| - 1 ==> !Fails(env, anondir, r.0[j]))
      && Fails(env, anondir, r.0[|r.0| - 1])
      && r.1.value == Error(row, AnonymizerFailed(AnonymizeCommand(anondir, r.0[|r.0| - 1].barcode, r.0[|r.0| - 1].origfile))))
  {
    var n := FirstFailure(env, row, anondir, anonid, slides);
    var count := if n < |slides| then n + 1 else n;
    var events := seq(count, j requires 0 <= j < count => SlideEvent(row, anonid, slides[j]));
    if n < |slides| then
      var e := SlideEvent(row, anonid, slides[n]);
      (events, Some(Error(row, AnonymizerFailed(AnonymizeCommand(anondir, e.barcode, e.origfile)))))
    else (events, None)
  }

  /** The barcodes of the slides of a row with AnonID `anonid`. */
  function SlideBarcodes(anonid: string, slides: seq<Slide>): set<string> {
    if |slides| == 0 then {}
    else
      var s := slides[|slides| - 1];
      SlideBarcodes(anonid, slides[..|slides| - 1]) + {Barcode(anonid, s.block, s.stain)}
  }

  lemma {:induction false} SlideBarcodesMembers(anonid: string, slides: seq<Slide>)
    ensures forall x :: x in SlideBarcodes(anonid, slides) <==>
      exists j :: 0 <= j < |slides| && x == Barcode(anonid, slides[j].block, slides[j].stain)
  {
    if |slides| > 0 {
      var init := slides[..|slides| - 1];
      SlideBarcodesMembers(anonid, init);
      assert forall j :: 0 <= j < |init| ==> init[j] == slides[j];
    }
  }

  /** The barcodes the anonymiser was invoked with. */
  function InvokedBarcodes(trace: seq<Event>): set<string> {
    if |trace| == 0 then {}
    else
      var e := trace[|trace| - 1];
      InvokedBarcodes(trace[..|trace| - 1]) + if e.Anonymized? then {e.barcode} else {}
  }

  lemma {:induction false} InvokedBarcodesMembers(trace: seq<Event>)
    ensures forall x :: x in InvokedBarcodes(trace) <==>
      exists j :: 0 <= j < |trace| && trace[j].Anonymized? && trace[j].barcode == x
  {
    if |trace| > 0 {
      var init := trace[..|trace| - 1];
      InvokedBarcodesMembers(init);
      assert forall j :: 0 <= j < |init| ==> init[j] == trace[j];
    }
  }

  lemma {:induction false} InvokedBarcodesAppend(a: seq<Event>, b: seq<Event>)
    ensures InvokedBarcodes(a + b) == InvokedBarcodes(a) + InvokedBarcodes(b)
    decreases |b|
  {
    if |b| > 0 {
      var init := b[..|b| - 1];
      InvokedBarcodesAppend(a, init);
      assert (a + b)[..|a + b| - 1] == a + init;
    } else {
      assert a + b == a;
    }
  }

  lemma {:induction false} InvokedSlideBarcodes(row: int, anonid: string, slides: seq<Slide>, events: seq<Event>)
    requires |events| == |slides|
    requires forall j :: 0 <= j < |slides| ==> events[j] == SlideEvent(row, anonid, slides[j])
    ensures InvokedBarcodes(events) == SlideBarcodes(anonid, slides)
  {
    if |slides| > 0 {
      InvokedSlideBarcodes(row, anonid, slides[..|slides| - 1], events[..|events| - 1]);
    }
  }

  /** Columns 7 .. max_column - 1 of row `r`: what a new row receives. The
      copy stops one column short of `max_column`. */
  function CopiedExtras(r: Row, maxColumn: nat): seq<string> {
    seq(if maxColumn > 7 then maxColumn - 7 else 0, m requires 0 <= m => Column(r, 7 + m))
  }

  /** The row recording slide `s` as done. */
  function DoneRow(caseName: string, anonid: string, s: Slide, extras: seq<string>): Row {
    Row("Done", caseName, s.origfile, anonid, s.block, s.stain, extras)
  }

  /** Row `r` records slide `s` of case `caseName` as done. */
  predicate RecordsSlide(r: Row, caseName: string, anonid: string, s: Slide) {
    && r.status == "Done"
    && r.caseRef == caseName
    && r.origfile == s.origfile
    && r.anonid == anonid
    && r.block == s.block
    && r.stain == s.stain
  }

  /** `update_spreadsheet`: pending row `k` becomes one done row per slide.
      The first keeps row `k`'s further columns; the inserted rows copy
      columns 7 .. max_column - 1 of row `k` and leave the rest empty. */
  function UpdateSpreadsheet(sheet: Sheet, k: nat, caseName: string, anonid: string, slides: seq<Slide>)
    : (r: Sheet)
    requires k < |sheet.rows| && |slides| >= 1
    ensures r.header == sheet.header && r.maxColumn == sheet.maxColumn
    ensures |r.rows| == |sheet.rows| + |slides| - 1
    ensures r.rows[..k] == sheet.rows[..k]
    ensures r.rows[k + |slides|..] == sheet.rows[k + 1..]
    ensures forall j :: k <= j < k + |slides| ==> RecordsSlide(r.rows[j], caseName, anonid, slides[j - k])
    ensures r.rows[k].extras == sheet.rows[k].extras
    ensures forall j, c :: k < j < k + |slides| && 7 <= c ==>
      Column(r.rows[j], c) == if c < sheet.maxColumn then Column(sheet.rows[k], c) else ""
  {
    var row := sheet.rows[k];
    var extras := CopiedExtras(row, sheet.maxColumn);
    var added := seq(|slides|, j requires 0 <= j < |slides| =>
      DoneRow(caseName, anonid, slides[j], if j == 0 then row.extras else extras));
    var rows := sheet.rows[..k] + added + sheet.rows[k + 1..];
    forall j | k < j < k + |slides| ensures forall c :: 7 <= c ==>
      Column(rows[j], c) == if c < sheet.maxColumn then Column(row, c) else ""
    {
      assert rows[j] == added[j - k];
      CopiedColumns(row, rows[j], sheet.maxColumn);
    }
    sheet.(rows := rows)
  }

  lemma CopiedColumns(r: Row, x: Row, maxColumn: nat)
    requires x.extras == CopiedExtras(r, maxColumn)
    ensures forall c :: 7 <= c ==> Column(x, c) == if c < maxColumn then Column(r, c) else ""
  {
  }

  /** Where the slides of a case are read from: the unpacked folder for a
      zip archive, the case folder itself otherwise. */
  function CaseDir(cfg: Config, caseName: string): string {
    if EndsWith(caseName, ".zip") then JoinPath(cfg.tmpdir, CaseId(caseName)) else JoinPath(cfg.basedir, caseName)
  }

  /** What the loop does for a pending row: either it stops (the case is
      missing, its slides cannot be read, or the anonymiser fails) or it
      anonymises the case's slides, which are then recorded. */
  datatype Step =
    | Stop(outcome: Outcome, events: seq<Event>)
    | Expand(caseName: string, slides: seq<Slide>, events: seq<Event>)

  /** The work on pending row `k`, up to the update of the spreadsheet: a
      case missing from the work directory halts the loop; a present case
      goes on to `CaseStep`. */
  function PendingStep(cfg: Config, env: Env, sheet: Sheet, k: nat): (s: Step)
    requires k < |sheet.rows|
    ensures var i := FirstDataRow + k;
      var caseName := Basename(sheet.rows[k].caseRef);
      && (JoinPath(cfg.basedir, caseName) !in env.paths <==> s.Stop? && s.outcome.Halted?)
      && (JoinPath(cfg.basedir, caseName) !in env.paths ==> s == Stop(Halted(i, caseName), []))
      && (JoinPath(cfg.basedir, caseName) in env.paths ==> s == CaseStep(cfg, env, i, caseName, sheet.rows[k].anonid))
      && (s.Stop? ==> !s.outcome.Finished?)
      && (s.Stop? && !s.outcome.Halted? ==> s.outcome.Failed? && s.outcome.error.row == i)
      && (forall j :: 0 <= j < |s.events| ==> s.events[j].Anonymized? && s.events[j].row == i)
      && (s.Expand? ==> (s.caseName == caseName && |s.slides| >= 1 && |s.events| == |s.slides|
            && forall j :: 0 <= j < |s.slides| ==> s.events[j] == SlideEvent(i, sheet.rows[k].anonid, s.slides[j])))
  {
    var i := FirstDataRow + k;
    var caseName := Basename(sheet.rows[k].caseRef);
    if JoinPath(cfg.basedir, caseName) !in env.paths then Stop(Halted(i, caseName), [])
    else CaseStep(cfg, env, i, caseName, sheet.rows[k].anonid)
  }

  /** The work on a present case of spreadsheet row `i`: its slides are
      read, each is anonymised in order, and the step expands the row
      exactly when the case directory is readable, `get_slides` finds at
      least one slide and no anonymiser command fails. Otherwise the step
      fails with the first of these errors: an unreadable case directory,
      the error of `get_slides`, no slides, the failing command. */
  function CaseStep(cfg: Config, env: Env, i: int, caseName: string, anonid: string): (s: Step)
    ensures s.Stop? ==> s.outcome.Failed? && s.outcome.error.row == i
    ensures forall j :: 0 <= j < |s.events| ==> s.events[j].Anonymized? && s.events[j].row == i
    ensures s.Expand? ==> (s.caseName == caseName && |s.slides| >= 1 && |s.events| == |s.slides|
      && forall j :: 0 <= j < |s.slides| ==> s.events[j] == SlideEvent(i, anonid, s.slides[j]))
    ensures var casedir := CaseDir(cfg, caseName);
      && (casedir !in env.listings ==> s == Stop(Failed(Error(i, CaseDirUnreadable(casedir))), []))
      && (casedir in env.listings ==>
            var found := GetSlides(i, casedir, env.listings[casedir]);
            && (found.Err? ==> s == Stop(Failed(found.error), []))
            && (found.Ok? && |found.value| == 0 ==> s == Stop(Failed(Error(i, NoSlides(caseName))), []))
            && (found.Ok? && |found.value| > 0 ==>
                  var anonymized := AnonymizeSlides(env, i, cfg.anondir, anonid, found.value);
                  && (s.Expand? <==> anonymized.1.None?)
                  && (s.Expand? ==> s.slides == found.value)
                  && (s.Stop? ==> s == Stop(Failed(anonymized.1.value), anonymized.0))))
  {
    var casedir := CaseDir(cfg, caseName);
    if casedir !in env.listings then Stop(Failed(Error(i, CaseDirUnreadable(casedir))), [])
    else
      match GetSlides(i, casedir, env.listings[casedir])
      case Err(e) => Stop(Failed(e), [])
      case Ok(slides) =>
        if |slides| == 0 then Stop(Failed(Error(i, NoSlides(caseName))), [])
        else
          var (events, failure) := AnonymizeSlides(env, i, cfg.anondir, anonid, slides);
          if failure.Some? then Stop(Failed(failure.value), events)
          else Expand(caseName, slides, events)
  }

  /** The loop of `anonymize` from data row `k` on, with the barcodes
      collected so far. A row with a status is passed over (a done row is
      saved again); a pending row has its case's slides anonymised and is
      expanded into one done row per slide, after which the loop resumes
      below them. */
  function Process(cfg: Config, env: Env, sheet: Sheet, k: nat, barcodes: set<string>): (r: Run)
    requires k <= |sheet.rows|
    ensures |r.sheet.rows| >= |sheet.rows|
    ensures r.sheet.header == sheet.header && r.sheet.maxColumn == sheet.maxColumn
    ensures r.sheet.rows[..k] == sheet.rows[..k]
    decreases |sheet.rows| - k
  {
    if k == |sheet.rows| then Run(Finished, sheet, barcodes, [])
    else if sheet.rows[k].status != "" then
      var rest := Process(cfg, env, sheet, k + 1, barcodes);
      PrefixOfPrefix(rest.sheet.rows, sheet.rows, k, k + 1);
      if IsDone(sheet.rows[k]) then rest.(trace := [Saved(sheet)] + rest.trace) else rest
    else
      var step := PendingStep(cfg, env, sheet, k);
      if step.Stop? then Run(step.outcome, sheet, barcodes, step.events)
      else
        var rest := Process(cfg, env, Expanded(cfg, env, sheet, k), Resumed(cfg, env, sheet, k),
                            barcodes + StepBarcodes(cfg, env, sheet, k));
        PrefixOfPrefix(rest.sheet.rows, Expanded(cfg, env, sheet, k).rows, k, Resumed(cfg, env, sheet, k));
        rest.(trace := step.events + [Saved(Expanded(cfg, env, sheet, k))] + rest.trace)
  }

  /** The spreadsheet after pending row `k` is expanded into its slides. */
  function Expanded(cfg: Config, env: Env, sheet: Sheet, k: nat): Sheet
    requires k < |sheet.rows| && PendingStep(cfg, env, sheet, k).Expand?
  {
    var step := PendingStep(cfg, env, sheet, k);
    UpdateSpreadsheet(sheet, k, step.caseName, sheet.rows[k].anonid, step.slides)
  }

  /** Where the loop resumes after expanding pending row `k`. */
  function Resumed(cfg: Config, env: Env, sheet: Sheet, k: nat): (i: nat)
    requires k < |sheet.rows| && PendingStep(cfg, env, sheet, k).Expand?
    ensures k < i <= |Expanded(cfg, env, sheet, k).rows|
    ensures |Expanded(cfg, env, sheet, k).rows| - i == |sheet.rows| - k - 1
  {
    k + |PendingStep(cfg, env, sheet, k).slides|
  }

  /** The barcodes of the slides anonymised for pending row `k`. */
  function StepBarcodes(cfg: Config, env: Env, sheet: Sheet, k: nat): set<string>
    requires k < |sheet.rows| && PendingStep(cfg, env, sheet, k).Expand?
  {
    SlideBarcodes(sheet.rows[k].anonid, PendingStep(cfg, env, sheet, k).slides)
  }

  lemma PrefixOfPrefix<T>(a: seq<T>, b: seq<T>, m: nat, n: nat)
    requires m <= n <= |a| && n <= |b| && a[..n] == b[..n]
    ensures a[..m] == b[..m]
  {
    assert a[..m] == a[..n][..m];
    assert b[..m] == b[..n][..m];
  }

  /** Equal prefixes agree at every index below their length. */
  lemma PrefixAt<T>(a: seq<T>, b: seq<T>, n: nat, j: nat)
    requires j < n <= |a| && n <= |b| && a[..n] == b[..n]
    ensures a[j] == b[j]
  {
    assert a[j] == a[..n][j];
  }

  /** `anonymize`: checks the header and the ledger, then runs the loop
      from the first data row with the barcodes of the done rows. */
  function Anonymize(cfg: Config, env: Env, sheet: Sheet): (r: Run)
    ensures !r.outcome.Failed? ==> CheckWorksheet(sheet.header).Ok? && ValidLedger(sheet.rows)
    ensures CheckWorksheet(sheet.header).Err? ==> r.outcome == Failed(CheckWorksheet(sheet.header).error) && r.trace == []
    ensures CheckWorksheet(sheet.header).Ok? && !ValidLedger(sheet.rows) ==> r.outcome.Failed? && r.trace == []
    ensures !r.outcome.Failed? ==> r.barcodes == DoneBarcodes(sheet.rows) + InvokedBarcodes(r.trace)
    ensures CheckWorksheet(sheet.header).Ok? && ValidLedger(sheet.rows) ==>
      r == Process(cfg, env, sheet, 0, DoneBarcodes(sheet.rows))
  {
    match CheckWorksheet(sheet.header)
    case Err(e) => Run(Failed(e), sheet, {}, [])
    case Ok(_) =>
      match ValidateAnonymizationData(sheet.rows)
      case Err(e) => Run(Failed(e), sheet, {}, [])
      case Ok(barcodes) =>
        BarcodesAccumulate(cfg, env, sheet, 0, barcodes);
        Process(cfg, env, sheet, 0, barcodes)
  }

  // ---------------------------------------------------------------------
  // Properties of the loop
  // ---------------------------------------------------------------------

  /** A row with a status is passed over: the pass from `k` ends as the
      pass from `k + 1` does, after one more save of the workbook when the
      row is done. */
  lemma PassesOverStatusRow(cfg: Config, env: Env, sheet: Sheet, k: nat, barcodes: set<string>)
    requires k < |sheet.rows| && sheet.rows[k].status != ""
    ensures var r := Process(cfg, env, sheet, k, barcodes);
      var rest := Process(cfg, env, sheet, k + 1, barcodes);
      && r.outcome == rest.outcome && r.sheet == rest.sheet && r.barcodes == rest.barcodes
      && r.trace == (if IsDone(sheet.rows[k]) then [Saved(sheet)] else []) + rest.trace
  {
    var rest := Process(cfg, env, sheet, k + 1, barcodes);
    assert [] + rest.trace == rest.trace;
  }

  /** Rows with a status are passed over unchanged: the pass from `k`
      ends as the pass from the first row `j` without one does, and rows
      above `j` are as they were. */
  lemma {:induction false} KeepsStatusRows(cfg: Config, env: Env, sheet: Sheet, k: nat, j: nat, barcodes: set<string>)
    requires k <= j <= |sheet.rows|
    requires forall m :: k <= m < j ==> sheet.rows[m].status != ""
    ensures var r := Process(cfg, env, sheet, k, barcodes);
      var rest := Process(cfg, env, sheet, j, barcodes);
      && r.outcome == rest.outcome && r.sheet == rest.sheet && r.barcodes == rest.barcodes
      && r.sheet.rows[..j] == sheet.rows[..j]
    decreases j - k
  {
    if k < j {
      KeepsStatusRows(cfg, env, sheet, k + 1, j, barcodes);
      PassesOverStatusRow(cfg, env, sheet, k, barcodes);
    }
  }

  /** An expanded pending row: the pass from `k` first invokes the
      anonymiser once per slide of the row, in order, then saves the
      expanded workbook and goes on below the inserted rows with the
      slides' barcodes added. It ends as that continuation does, and its
      final spreadsheet records each slide on the row the slide was
      written to. */
  lemma {:induction false} ExpandsPendingRow(cfg: Config, env: Env, sheet: Sheet, k: nat, barcodes: set<string>)
    requires k < |sheet.rows| && sheet.rows[k].status == "" && PendingStep(cfg, env, sheet, k).Expand?
    ensures var step := PendingStep(cfg, env, sheet, k);
      var sheet' := Expanded(cfg, env, sheet, k);
      var rest := Process(cfg, env, sheet', Resumed(cfg, env, sheet, k), barcodes + StepBarcodes(cfg, env, sheet, k));
      var r := Process(cfg, env, sheet, k, barcodes);
      && r.outcome == rest.outcome && r.sheet == rest.sheet && r.barcodes == rest.barcodes
      && r.trace == step.events + [Saved(sheet')] + rest.trace
      && |step.slides| <= |r.trace|
      && (forall j :: 0 <= j < |step.slides| ==>
            && r.trace[j] == SlideEvent(FirstDataRow + k, sheet.rows[k].anonid, step.slides[j])
            && k + j < |r.sheet.rows|
            && RecordsSlide(r.sheet.rows[k + j], step.caseName, sheet.rows[k].anonid, step.slides[j]))
  {
    var step := PendingStep(cfg, env, sheet, k);
    var sheet' := Expanded(cfg, env, sheet, k);
    var i := Resumed(cfg, env, sheet, k);
    var rest := Process(cfg, env, sheet', i, barcodes + StepBarcodes(cfg, env, sheet, k));
    var r := Process(cfg, env, sheet, k, barcodes);
    assert r.trace == step.events + [Saved(sheet')] + rest.trace;
    forall j | 0 <= j < |step.slides|
      ensures r.trace[j] == SlideEvent(FirstDataRow + k, sheet.rows[k].anonid, step.slides[j])
      ensures k + j < |r.sheet.rows|
      ensures RecordsSlide(r.sheet.rows[k + j], step.caseName, sheet.rows[k].anonid, step.slides[j])
    {
      ExpandedRecords(cfg, env, sheet, k, j);
      PrefixAt(rest.sheet.rows, sheet'.rows, i, k + j);
    }
  }

  /** A pending row whose step stops ends the pass with the spreadsheet
      and barcodes as they were, after the step's invocations only. */
  lemma StopsAtPendingStep(cfg: Config, env: Env, sheet: Sheet, k: nat, barcodes: set<string>)
    requires k < |sheet.rows| && sheet.rows[k].status == "" && PendingStep(cfg, env, sheet, k).Stop?
    ensures var step := PendingStep(cfg, env, sheet, k);
      Process(cfg, env, sheet, k, barcodes) == Run(step.outcome, sheet, barcodes, step.events)
  {
  }

  /** Unless the pass fails, the barcodes it returns are the ones it
      started with plus every barcode the anonymiser was invoked with. */
  lemma {:induction false} BarcodesAccumulate(cfg: Config, env: Env, sheet: Sheet, k: nat, barcodes: set<string>)
    requires k <= |sheet.rows|
    ensures var r := Process(cfg, env, sheet, k, barcodes);
      Accumulates(r.outcome, r.barcodes, barcodes, r.trace)
    decreases |sheet.rows| - k
  {
    if k < |sheet.rows| {
      if sheet.rows[k].status != "" {
        BarcodesAccumulate(cfg, env, sheet, k + 1, barcodes);
        BarcodesSkipStep(cfg, env, sheet, k, barcodes);
      } else if PendingStep(cfg, env, sheet, k).Expand? {
        BarcodesAccumulate(cfg, env, Expanded(cfg, env, sheet, k), Resumed(cfg, env, sheet, k),
                           barcodes + StepBarcodes(cfg, env, sheet, k));
        BarcodesExpandStep(cfg, env, sheet, k, barcodes);
      } else if PendingStep(cfg, env, sheet, k).outcome.Halted? {
        assert InvokedBarcodes([]) == {};
      }
    }
  }

  /** Unless `outcome` is a failure, `got` is `start` plus the barcodes
      invoked in `trace`. */
  predicate Accumulates(outcome: Outcome, got: set<string>, start: set<string>, trace: seq<Event>) {
    !outcome.Failed? ==> got == start + InvokedBarcodes(trace)
  }

  lemma BarcodesSkipStep(cfg: Config, env: Env, sheet: Sheet, k: nat, barcodes: set<string>)
    requires k < |sheet.rows| && sheet.rows[k].status != ""
    requires var rest := Process(cfg, env, sheet, k + 1, barcodes);
      Accumulates(rest.outcome, rest.barcodes, barcodes, rest.trace)
    ensures var r := Process(cfg, env, sheet, k, barcodes);
      Accumulates(r.outcome, r.barcodes, barcodes, r.trace)
  {
    var r := Process(cfg, env, sheet, k, barcodes);
    var rest := Process(cfg, env, sheet, k + 1, barcodes);
    assert r.outcome == rest.outcome && r.barcodes == rest.barcodes;
    assert r.trace == rest.trace || r.trace == [Saved(sheet)] + rest.trace;
    InvokedBarcodesAppend([Saved(sheet)], rest.trace);
    assert InvokedBarcodes([Saved(sheet)]) == {};
  }

  lemma BarcodesExpandStep(cfg: Config, env: Env, sheet: Sheet, k: nat, barcodes: set<string>)
    requires k < |sheet.rows| && sheet.rows[k].status == "" && PendingStep(cfg, env, sheet, k).Expand?
    requires var rest := Process(cfg, env, Expanded(cfg, env, sheet, k), Resumed(cfg, env, sheet, k),
                                 barcodes + StepBarcodes(cfg, env, sheet, k));
      Accumulates(rest.outcome, rest.barcodes, barcodes + StepBarcodes(cfg, env, sheet, k), rest.trace)
    ensures var r := Process(cfg, env, sheet, k, barcodes);
      Accumulates(r.outcome, r.barcodes, barcodes, r.trace)
  {
    var r := Process(cfg, env, sheet, k, barcodes);
    var step := PendingStep(cfg, env, sheet, k);
    var sheet' := Expanded(cfg, env, sheet, k);
    var b' := barcodes + StepBarcodes(cfg, env, sheet, k);
    var rest := Process(cfg, env, sheet', Resumed(cfg, env, sheet, k), b');
    assert r.outcome == rest.outcome && r.barcodes == rest.barcodes;
    assert r.trace == step.events + [Saved(sheet')] + rest.trace;
    InvokedSlideBarcodes(FirstDataRow + k, sheet.rows[k].anonid, step.slides, step.events);
    AccumulatesAfterSave(r, rest, step.events, sheet', barcodes, StepBarcodes(cfg, env, sheet, k));
  }

  lemma AccumulatesAfterSave(r: Run, rest: Run, events: seq<Event>, saved: Sheet, barcodes: set<string>, added: set<string>)
    requires r.outcome == rest.outcome && r.barcodes == rest.barcodes
    requires r.trace == events + [Saved(saved)] + rest.trace
    requires InvokedBarcodes(events) == added
    requires Accumulates(rest.outcome, rest.barcodes, barcodes + added, rest.trace)
    ensures Accumulates(r.outcome, r.barcodes, barcodes, r.trace)
  {
    InvokedBarcodesAppend(events, [Saved(saved)]);
    InvokedBarcodesAppend(events + [Saved(saved)], rest.trace);
    assert InvokedBarcodes([Saved(saved)]) == {};
  }

  /** With no pending row left from `k` on, the pass finishes without
      invoking the anonymiser and without changing anything: it only saves
      the unchanged workbook once per done row. */
  lemma {:induction false} NoPendingNoInvoke(cfg: Config, env: Env, sheet: Sheet, k: nat, barcodes: set<string>)
    requires k <= |sheet.rows|
    requires forall j :: k <= j < |sheet.rows| ==> sheet.rows[j].status != ""
    ensures var r := Process(cfg, env, sheet, k, barcodes);
      && r.outcome == Finished && r.sheet == sheet && r.barcodes == barcodes
      && forall e :: e in r.trace ==> e == Saved(sheet)
    decreases |sheet.rows| - k
  {
    if k < |sheet.rows| {
      NoPendingNoInvoke(cfg, env, sheet, k + 1, barcodes);
    }
  }

  /** No row from `k` on is pending. */
  predicate NoPendingFrom(rows: seq<Row>, k: nat) {
    forall j :: k <= j < |rows| ==> rows[j].status != ""
  }

  lemma NoPendingJoin(rows: seq<Row>, k: nat, m: nat)
    requires k <= m && NoPendingFrom(rows, m)
    requires forall j :: k <= j < m && j < |rows| ==> rows[j].status != ""
    ensures NoPendingFrom(rows, k)
  {
  }

  /** A pass that finishes leaves no pending row from `k` on. */
  lemma {:induction false} FinishedLeavesNoPending(cfg: Config, env: Env, sheet: Sheet, k: nat, barcodes: set<string>)
    requires k <= |sheet.rows|
    ensures var r := Process(cfg, env, sheet, k, barcodes);
      r.outcome.Finished? ==> NoPendingFrom(r.sheet.rows, k)
    decreases |sheet.rows| - k
  {
    if k < |sheet.rows| {
      if sheet.rows[k].status != "" {
        var rest := Process(cfg, env, sheet, k + 1, barcodes);
        assert Process(cfg, env, sheet, k, barcodes).sheet == rest.sheet;
        assert Process(cfg, env, sheet, k, barcodes).outcome == rest.outcome;
        FinishedLeavesNoPending(cfg, env, sheet, k + 1, barcodes);
        if rest.outcome.Finished? {
          PrefixAt(rest.sheet.rows, sheet.rows, k + 1, k);
          NoPendingJoin(rest.sheet.rows, k, k + 1);
        }
      } else if PendingStep(cfg, env, sheet, k).Expand? {
        var sheet' := Expanded(cfg, env, sheet, k);
        var i := Resumed(cfg, env, sheet, k);
        var r := Process(cfg, env, sheet', i, barcodes + StepBarcodes(cfg, env, sheet, k));
        assert Process(cfg, env, sheet, k, barcodes).sheet == r.sheet;
        assert Process(cfg, env, sheet, k, barcodes).outcome == r.outcome;
        FinishedLeavesNoPending(cfg, env, sheet', i, barcodes + StepBarcodes(cfg, env, sheet, k));
        if r.outcome.Finished? {
          forall j | k <= j < i && j < |r.sheet.rows| ensures r.sheet.rows[j].status != "" {
            PrefixAt(r.sheet.rows, sheet'.rows, i, j);
            ExpandedRowsDone(cfg, env, sheet, k, j);
          }
          NoPendingJoin(r.sheet.rows, k, i);
        }
      }
    }
  }

  /** The rows a pending row is expanded into are done. */
  lemma ExpandedRowsDone(cfg: Config, env: Env, sheet: Sheet, k: nat, j: nat)
    requires k < |sheet.rows| && PendingStep(cfg, env, sheet, k).Expand?
    requires k <= j < Resumed(cfg, env, sheet, k)
    ensures Expanded(cfg, env, sheet, k).rows[j].status == "Done"
  {
  }

  /** Rows are never processed twice: running the loop again over the
      spreadsheet a finished pass leaves, in any environment, invokes the
      anonymiser for nothing and changes nothing. */
  lemma FinishedRerun(cfg: Config, env: Env, env': Env, sheet: Sheet, k: nat, barcodes: set<string>, barcodes': set<string>)
    requires k <= |sheet.rows|
    requires Process(cfg, env, sheet, k, barcodes).outcome.Finished?
    ensures var s := Process(cfg, env, sheet, k, barcodes).sheet;
      var r := Process(cfg, env', s, k, barcodes');
      && r.outcome == Finished && r.sheet == s && r.barcodes == barcodes'
      && forall e :: e in r.trace ==> !e.Anonymized?
  {
    var s := Process(cfg, env, sheet, k, barcodes).sheet;
    FinishedLeavesNoPending(cfg, env, sheet, k, barcodes);
    NoPendingNoInvoke(cfg, env', s, k, barcodes');
  }

  /** The whole of `anonymize`, run again on the spreadsheet a finished
      run leaves, anonymises nothing. */
  lemma AnonymizeRerun(cfg: Config, env: Env, env': Env, sheet: Sheet)
    requires Anonymize(cfg, env, sheet).outcome.Finished?
    ensures forall e :: e in Anonymize(cfg, env', Anonymize(cfg, env, sheet).sheet).trace ==> !e.Anonymized?
    ensures var s := Anonymize(cfg, env, sheet).sheet;
      var r := Anonymize(cfg, env', s);
      || (r.outcome == Finished && r.sheet == s)
      || (r.outcome.Failed? && r.trace == [])
  {
    var barcodes := ValidateAnonymizationData(sheet.rows).value;
    var s := Process(cfg, env, sheet, 0, barcodes).sheet;
    assert Anonymize(cfg, env, sheet).sheet == s;
    FinishedLeavesNoPending(cfg, env, sheet, 0, barcodes);
    if CheckWorksheet(s.header).Ok? && ValidLedger(s.rows) {
      var barcodes' := ValidateAnonymizationData(s.rows).value;
      NoPendingNoInvoke(cfg, env', s, 0, barcodes');
    }
  }

  /** The anonymiser's invocation `e` is recorded in `rows`, on or below
      the row it was made for, as a done row carrying its file and its
      barcode. */
  predicate Recorded(rows: seq<Row>, e: Event)
    requires e.Anonymized?
  {
    exists m :: 0 <= m < |rows| && e.row - FirstDataRow <= m && rows[m].status == "Done"
      && rows[m].origfile == e.origfile && BarcodeOf(rows[m]) == e.barcode
  }

  /** Every invocation in `trace` was made for a row from `k` on and is
      recorded in `rows`. */
  predicate AllRecorded(trace: seq<Event>, rows: seq<Row>, k: nat) {
    forall e :: e in trace && e.Anonymized? ==> e.row >= FirstDataRow + k && Recorded(rows, e)
  }

  /** Every slide the anonymiser was invoked for, in a pass that did not
      fail, is recorded in the resulting spreadsheet. */
  lemma {:induction false} AnonymizedRecorded(cfg: Config, env: Env, sheet: Sheet, k: nat, barcodes: set<string>)
    requires k <= |sheet.rows|
    ensures var r := Process(cfg, env, sheet, k, barcodes);
      !r.outcome.Failed? ==> AllRecorded(r.trace, r.sheet.rows, k)
    decreases |sheet.rows| - k, 1
  {
    if k < |sheet.rows| {
      if sheet.rows[k].status != "" {
        RecordedSkipStep(cfg, env, sheet, k, barcodes);
      } else if PendingStep(cfg, env, sheet, k).Expand? {
        RecordedExpandStep(cfg, env, sheet, k, barcodes);
      } else {
        var step := PendingStep(cfg, env, sheet, k);
        assert Process(cfg, env, sheet, k, barcodes) == Run(step.outcome, sheet, barcodes, step.events);
      }
    }
  }

  lemma {:induction false} RecordedSkipStep(cfg: Config, env: Env, sheet: Sheet, k: nat, barcodes: set<string>)
    requires k < |sheet.rows| && sheet.rows[k].status != ""
    ensures var r := Process(cfg, env, sheet, k, barcodes);
      !r.outcome.Failed? ==> AllRecorded(r.trace, r.sheet.rows, k)
    decreases |sheet.rows| - k, 0
  {
    AnonymizedRecorded(cfg, env, sheet, k + 1, barcodes);
    var rest := Process(cfg, env, sheet, k + 1, barcodes);
    var r := Process(cfg, env, sheet, k, barcodes);
    assert r.sheet == rest.sheet && r.outcome == rest.outcome;
    assert r.trace == rest.trace || r.trace == [Saved(sheet)] + rest.trace;
  }

  lemma {:induction false} RecordedExpandStep(cfg: Config, env: Env, sheet: Sheet, k: nat, barcodes: set<string>)
    requires k < |sheet.rows| && sheet.rows[k].status == "" && PendingStep(cfg, env, sheet, k).Expand?
    ensures var r := Process(cfg, env, sheet, k, barcodes);
      !r.outcome.Failed? ==> AllRecorded(r.trace, r.sheet.rows, k)
    decreases |sheet.rows| - k, 0
  {
    var step := PendingStep(cfg, env, sheet, k);
    var sheet' := Expanded(cfg, env, sheet, k);
    var i := Resumed(cfg, env, sheet, k);
    var rest := Process(cfg, env, sheet', i, barcodes + StepBarcodes(cfg, env, sheet, k));
    AnonymizedRecorded(cfg, env, sheet', i, barcodes + StepBarcodes(cfg, env, sheet, k));
    var r := Process(cfg, env, sheet, k, barcodes);
    assert r.sheet == rest.sheet && r.outcome == rest.outcome;
    assert r.trace == step.events + [Saved(sheet')] + rest.trace;
    if !r.outcome.Failed? {
      StepEventsRecorded(cfg, env, sheet, k, rest.sheet.rows);
      AllRecordedAppend(step.events, [Saved(sheet')], rest.sheet.rows, k);
      AllRecordedWeaken(rest.trace, rest.sheet.rows, i, k);
      AllRecordedAppend(step.events + [Saved(sheet')], rest.trace, rest.sheet.rows, k);
    }
  }

  /** The invocations of pending row `k` are recorded in any spreadsheet
      that keeps the rows it was expanded into. */
  lemma StepEventsRecorded(cfg: Config, env: Env, sheet: Sheet, k: nat, rows: seq<Row>)
    requires k < |sheet.rows| && PendingStep(cfg, env, sheet, k).Expand?
    requires Resumed(cfg, env, sheet, k) <= |rows|
    requires rows[..Resumed(cfg, env, sheet, k)] == Expanded(cfg, env, sheet, k).rows[..Resumed(cfg, env, sheet, k)]
    ensures AllRecorded(PendingStep(cfg, env, sheet, k).events, rows, k)
  {
    var step := PendingStep(cfg, env, sheet, k);
    var anonid := sheet.rows[k].anonid;
    forall e | e in step.events && e.Anonymized? ensures e.row >= FirstDataRow + k && Recorded(rows, e) {
      var j :| 0 <= j < |step.events| && step.events[j] == e;
      PrefixAt(rows, Expanded(cfg, env, sheet, k).rows, Resumed(cfg, env, sheet, k), k + j);
      ExpandedRecords(cfg, env, sheet, k, j);
      var x := Expanded(cfg, env, sheet, k).rows[k + j];
      assert rows[k + j] == x;
      assert RecordsSlide(x, step.caseName, anonid, step.slides[j]);
      assert e == SlideEvent(FirstDataRow + k, anonid, step.slides[j]);
      SlideRecorded(rows, k + j, x, step.caseName, anonid, step.slides[j], FirstDataRow + k);
    }
  }

  lemma AllRecordedAppend(a: seq<Event>, b: seq<Event>, rows: seq<Row>, k: nat)
    requires AllRecorded(a, rows, k) && AllRecorded(b, rows, k)
    ensures AllRecorded(a + b, rows, k)
  {
  }

  lemma AllRecordedWeaken(trace: seq<Event>, rows: seq<Row>, i: nat, k: nat)
    requires k <= i && AllRecorded(trace, rows, i)
    ensures AllRecorded(trace, rows, k)
  {
  }

  /** Row `k + j` of the expanded spreadsheet records slide `j` of the case. */
  lemma ExpandedRecords(cfg: Config, env: Env, sheet: Sheet, k: nat, j: nat)
    requires k < |sheet.rows| && PendingStep(cfg, env, sheet, k).Expand?
    requires j < |PendingStep(cfg, env, sheet, k).slides|
    ensures var step := PendingStep(cfg, env, sheet, k);
      && k + j < |Expanded(cfg, env, sheet, k).rows|
      && step.events[j] == SlideEvent(FirstDataRow + k, sheet.rows[k].anonid, step.slides[j])
      && RecordsSlide(Expanded(cfg, env, sheet, k).rows[k + j], step.caseName, sheet.rows[k].anonid, step.slides[j])
  {
  }

  /** A row that records a slide, on or below the row the slide was
      anonymised for, records that invocation. */
  lemma SlideRecorded(rows: seq<Row>, m: nat, x: Row, caseName: string, anonid: string, s: Slide, row: int)
    requires m < |rows| && rows[m] == x && row - FirstDataRow <= m
    requires RecordsSlide(x, caseName, anonid, s)
    ensures Recorded(rows, SlideEvent(row, anonid, s))
  {
  }

  /** The spreadsheet row a run that did not finish stopped at: the row
      of the missing case, or the row its error names. */
  function StopRow(outcome: Outcome): int
    requires !outcome.Finished?
  {
    if outcome.Halted? then outcome.row else outcome.error.row
  }

  /** A run of the loop from row `k` of `sheet` that ended with `outcome`
      and the spreadsheet `final` stopped at a pending row: every row from
      `k` above it has a status, and the row and everything below it are as
      they were in `sheet`. A halt names that row's case, which is missing
      from the work directory. */
  predicate StoppedAtPending(cfg: Config, env: Env, sheet: Sheet, k: nat, outcome: Outcome, final: Sheet)
    requires !outcome.Finished?
  {
    var j := StopRow(outcome) - FirstDataRow;
    && k <= j < |final.rows|
    && |final.rows| - j <= |sheet.rows| - k
    && final.rows[j].status == ""
    && (outcome.Halted? ==>
          outcome.caseName == Basename(final.rows[j].caseRef) && JoinPath(cfg.basedir, outcome.caseName) !in env.paths)
    && (forall m :: k <= m < j ==> final.rows[m].status != "")
    && final.rows[j..] == sheet.rows[|sheet.rows| - (|final.rows| - j)..]
  }

  lemma {:induction false} StopsAtPendingRow(cfg: Config, env: Env, sheet: Sheet, k: nat, barcodes: set<string>)
    requires k <= |sheet.rows|
    ensures var r := Process(cfg, env, sheet, k, barcodes);
      !r.outcome.Finished? ==> StoppedAtPending(cfg, env, sheet, k, r.outcome, r.sheet)
    decreases |sheet.rows| - k
  {
    if k < |sheet.rows| {
      if sheet.rows[k].status != "" {
        StopsAtPendingRow(cfg, env, sheet, k + 1, barcodes);
        StoppedSkipStep(cfg, env, sheet, k, barcodes);
      } else if PendingStep(cfg, env, sheet, k).Expand? {
        StopsAtPendingRow(cfg, env, Expanded(cfg, env, sheet, k), Resumed(cfg, env, sheet, k),
                            barcodes + StepBarcodes(cfg, env, sheet, k));
        StoppedExpandStep(cfg, env, sheet, k, barcodes);
      } else {
        StoppedHere(cfg, env, sheet, k, barcodes);
      }
    }
  }

  /** A pending row whose step stops ends the loop right there. */
  lemma StoppedHere(cfg: Config, env: Env, sheet: Sheet, k: nat, barcodes: set<string>)
    requires k < |sheet.rows| && sheet.rows[k].status == "" && PendingStep(cfg, env, sheet, k).Stop?
    ensures var r := Process(cfg, env, sheet, k, barcodes);
      !r.outcome.Finished? && StoppedAtPending(cfg, env, sheet, k, r.outcome, r.sheet)
  {
    var step := PendingStep(cfg, env, sheet, k);
    var r := Process(cfg, env, sheet, k, barcodes);
    assert r.outcome == step.outcome && r.sheet == sheet;
    assert StopRow(step.outcome) == FirstDataRow + k;
    assert sheet.rows[k..] == sheet.rows[|sheet.rows| - (|sheet.rows| - k)..];
  }

  lemma StoppedSkipStep(cfg: Config, env: Env, sheet: Sheet, k: nat, barcodes: set<string>)
    requires k < |sheet.rows| && sheet.rows[k].status != ""
    requires var rest := Process(cfg, env, sheet, k + 1, barcodes);
      !rest.outcome.Finished? ==> StoppedAtPending(cfg, env, sheet, k + 1, rest.outcome, rest.sheet)
    ensures var r := Process(cfg, env, sheet, k, barcodes);
      !r.outcome.Finished? ==> StoppedAtPending(cfg, env, sheet, k, r.outcome, r.sheet)
  {
    var r := Process(cfg, env, sheet, k, barcodes);
    var rest := Process(cfg, env, sheet, k + 1, barcodes);
    assert r.sheet == rest.sheet && r.outcome == rest.outcome;
    if !rest.outcome.Finished? {
      PrefixAt(rest.sheet.rows, sheet.rows, k + 1, k);
      StoppedAfterSkip(cfg, env, sheet, k, rest);
    }
  }

  lemma StoppedExpandStep(cfg: Config, env: Env, sheet: Sheet, k: nat, barcodes: set<string>)
    requires k < |sheet.rows| && sheet.rows[k].status == "" && PendingStep(cfg, env, sheet, k).Expand?
    requires var rest := Process(cfg, env, Expanded(cfg, env, sheet, k), Resumed(cfg, env, sheet, k),
                                 barcodes + StepBarcodes(cfg, env, sheet, k));
      !rest.outcome.Finished? ==> StoppedAtPending(cfg, env, Expanded(cfg, env, sheet, k), Resumed(cfg, env, sheet, k), rest.outcome, rest.sheet)
    ensures var r := Process(cfg, env, sheet, k, barcodes);
      !r.outcome.Finished? ==> StoppedAtPending(cfg, env, sheet, k, r.outcome, r.sheet)
  {
    var r := Process(cfg, env, sheet, k, barcodes);
    var sheet' := Expanded(cfg, env, sheet, k);
    var i := Resumed(cfg, env, sheet, k);
    var rest := Process(cfg, env, sheet', i, barcodes + StepBarcodes(cfg, env, sheet, k));
    assert r.sheet == rest.sheet && r.outcome == rest.outcome;
    if !rest.outcome.Finished? {
      forall m | k <= m < i ensures sheet'.rows[m].status != "" {
        ExpandedRowsDone(cfg, env, sheet, k, m);
      }
      ExpandedTail(cfg, env, sheet, k);
      StoppedAfterExpand(cfg, env, sheet, sheet', k, i, rest);
    }
  }

  lemma StoppedAfterSkip(cfg: Config, env: Env, sheet: Sheet, k: nat, r: Run)
    requires k < |sheet.rows| && sheet.rows[k].status != ""
    requires !r.outcome.Finished? && StoppedAtPending(cfg, env, sheet, k + 1, r.outcome, r.sheet)
    requires r.sheet.rows[k] == sheet.rows[k]
    ensures StoppedAtPending(cfg, env, sheet, k, r.outcome, r.sheet)
  {
  }

  lemma StoppedAfterExpand(cfg: Config, env: Env, sheet: Sheet, sheet': Sheet, k: nat, i: nat, r: Run)
    requires k < i <= |sheet'.rows| && |sheet'.rows| - i == |sheet.rows| - k - 1
    requires sheet'.rows[i..] == sheet.rows[k + 1..]
    requires forall m :: k <= m < i ==> sheet'.rows[m].status != ""
    requires !r.outcome.Finished? && StoppedAtPending(cfg, env, sheet', i, r.outcome, r.sheet)
    requires |r.sheet.rows| >= i && r.sheet.rows[..i] == sheet'.rows[..i]
    ensures StoppedAtPending(cfg, env, sheet, k, r.outcome, r.sheet)
  {
    var j := StopRow(r.outcome) - FirstDataRow;
    forall m | k <= m < i ensures r.sheet.rows[m].status != "" {
      PrefixAt(r.sheet.rows, sheet'.rows, i, m);
    }
    SameSuffix(sheet'.rows, sheet.rows, i, k + 1, |r.sheet.rows| - j);
  }

  /** Below the rows a pending row is expanded into, the spreadsheet is
      the old one from the row after it. */
  lemma ExpandedTail(cfg: Config, env: Env, sheet: Sheet, k: nat)
    requires k < |sheet.rows| && PendingStep(cfg, env, sheet, k).Expand?
    ensures Expanded(cfg, env, sheet, k).rows[Resumed(cfg, env, sheet, k)..] == sheet.rows[k + 1..]
  {
  }

  lemma SameSuffix<T>(a: seq<T>, b: seq<T>, x: nat, y: nat, len: nat)
    requires x <= |a| && y <= |b| && a[x..] == b[y..] && len <= |a| - x
    ensures a[|a| - len..] == b[|b| - len..]
  {
    assert a[|a| - len..] == a[x..][|a| - x - len..];
    assert b[|b| - len..] == b[y..][|b| - y - len..];
  }

  /** A pending row whose case directory holds no sub-directory ends the
      pass with the "no slides" error, before any invocation. */
  lemma ZeroSlidesFail(cfg: Config, env: Env, sheet: Sheet, k: nat, barcodes: set<string>)
    requires k < |sheet.rows| && sheet.rows[k].status == ""
    requires JoinPath(cfg.basedir, Basename(sheet.rows[k].caseRef)) in env.paths
    requires var casedir := CaseDir(cfg, Basename(sheet.rows[k].caseRef));
      casedir in env.listings && env.listings[casedir] == []
    ensures var r := Process(cfg, env, sheet, k, barcodes);
      r.outcome == Failed(Error(FirstDataRow + k, NoSlides(Basename(sheet.rows[k].caseRef)))) && r.trace == []
  {
  }

  // ---------------------------------------------------------------------
  // Resuming after a run that stopped
  // ---------------------------------------------------------------------

  /** Every anonymiser invocation in `trace` is for spreadsheet row `i` or
      a row below it. */
  predicate InvokedFrom(trace: seq<Event>, i: int) {
    forall e :: e in trace && e.Anonymized? ==> e.row >= i
  }

  /** The loop from data row `k` invokes the anonymiser for no row above
      `k`. */
  lemma {:induction false} InvokesFromStart(cfg: Config, env: Env, sheet: Sheet, k: nat, barcodes: set<string>)
    requires k <= |sheet.rows|
    ensures InvokedFrom(Process(cfg, env, sheet, k, barcodes).trace, FirstDataRow + k)
    decreases |sheet.rows| - k
  {
    if k < |sheet.rows| {
      if sheet.rows[k].status != "" {
        InvokesFromStart(cfg, env, sheet, k + 1, barcodes);
        InvokesAfterSkip(cfg, env, sheet, k, barcodes);
      } else if PendingStep(cfg, env, sheet, k).Expand? {
        InvokesFromStart(cfg, env, Expanded(cfg, env, sheet, k), Resumed(cfg, env, sheet, k),
                         barcodes + StepBarcodes(cfg, env, sheet, k));
        InvokesAfterExpand(cfg, env, sheet, k, barcodes);
      } else {
        InvokesAtStop(cfg, env, sheet, k, barcodes);
      }
    }
  }

  lemma InvokesAtStop(cfg: Config, env: Env, sheet: Sheet, k: nat, barcodes: set<string>)
    requires k < |sheet.rows| && sheet.rows[k].status == "" && PendingStep(cfg, env, sheet, k).Stop?
    ensures InvokedFrom(Process(cfg, env, sheet, k, barcodes).trace, FirstDataRow + k)
  {
    var step := PendingStep(cfg, env, sheet, k);
    assert Process(cfg, env, sheet, k, barcodes).trace == step.events by {
      StopsAtPendingStep(cfg, env, sheet, k, barcodes);
    }
    assert forall n :: 0 <= n < |step.events| ==> step.events[n].row == FirstDataRow + k;
  }

  lemma InvokesAfterSkip(cfg: Config, env: Env, sheet: Sheet, k: nat, barcodes: set<string>)
    requires k < |sheet.rows| && sheet.rows[k].status != ""
    requires InvokedFrom(Process(cfg, env, sheet, k + 1, barcodes).trace, FirstDataRow + k + 1)
    ensures InvokedFrom(Process(cfg, env, sheet, k, barcodes).trace, FirstDataRow + k)
  {
    PassesOverStatusRow(cfg, env, sheet, k, barcodes);
    InvokedFromAppend(if IsDone(sheet.rows[k]) then [Saved(sheet)] else [],
                      Process(cfg, env, sheet, k + 1, barcodes).trace, FirstDataRow + k);
  }

  lemma InvokesAfterExpand(cfg: Config, env: Env, sheet: Sheet, k: nat, barcodes: set<string>)
    requires k < |sheet.rows| && sheet.rows[k].status == "" && PendingStep(cfg, env, sheet, k).Expand?
    requires InvokedFrom(Process(cfg, env, Expanded(cfg, env, sheet, k), Resumed(cfg, env, sheet, k),
                                 barcodes + StepBarcodes(cfg, env, sheet, k)).trace,
                         FirstDataRow + Resumed(cfg, env, sheet, k))
    ensures InvokedFrom(Process(cfg, env, sheet, k, barcodes).trace, FirstDataRow + k)
  {
    var i := FirstDataRow + k;
    var step := PendingStep(cfg, env, sheet, k);
    var sheet' := Expanded(cfg, env, sheet, k);
    var rest := Process(cfg, env, sheet', Resumed(cfg, env, sheet, k), barcodes + StepBarcodes(cfg, env, sheet, k));
    assert Process(cfg, env, sheet, k, barcodes).trace == step.events + [Saved(sheet')] + rest.trace by {
      ExpandsPendingRow(cfg, env, sheet, k, barcodes);
    }
    assert forall n :: 0 <= n < |step.events| ==> step.events[n].Anonymized? && step.events[n].row == i;
    InvokedAfterStep(step.events, sheet', rest.trace, i, FirstDataRow + Resumed(cfg, env, sheet, k));
  }

  /** A step's invocations for row `i`, a save, and a rest that invokes
      nothing above a row `j` at or below `i` invoke nothing above `i`. */
  lemma InvokedAfterStep(events: seq<Event>, saved: Sheet, rest: seq<Event>, i: int, j: int)
    requires i <= j
    requires forall n :: 0 <= n < |events| ==> events[n].Anonymized? && events[n].row == i
    requires InvokedFrom(rest, j)
    ensures InvokedFrom(events + [Saved(saved)] + rest, i)
  {
    InvokedFromAppend(events, [Saved(saved)], i);
    InvokedFromAppend(events + [Saved(saved)], rest, i);
  }

  /** Two traces that invoke nothing above row `i` make one that does not. */
  lemma InvokedFromAppend(a: seq<Event>, b: seq<Event>, i: int)
    requires InvokedFrom(a, i) && InvokedFrom(b, i)
    ensures InvokedFrom(a + b, i)
  {
  }

  /** Rows that have a status are passed over: the loop from `k` invokes
      the anonymiser for no row above the first row `j` without one. */
  lemma {:induction false} SkipsStatusRows(cfg: Config, env: Env, sheet: Sheet, k: nat, j: nat, barcodes: set<string>)
    requires k <= j <= |sheet.rows|
    requires forall m :: k <= m < j ==> sheet.rows[m].status != ""
    ensures InvokedFrom(Process(cfg, env, sheet, k, barcodes).trace, FirstDataRow + j)
    decreases j - k
  {
    if k == j {
      InvokesFromStart(cfg, env, sheet, k, barcodes);
    } else {
      SkipsStatusRows(cfg, env, sheet, k + 1, j, barcodes);
      var r := Process(cfg, env, sheet, k, barcodes);
      var rest := Process(cfg, env, sheet, k + 1, barcodes);
      assert r.trace == rest.trace || r.trace == [Saved(sheet)] + rest.trace;
    }
  }

  /** A loop that halted or failed can be run again on the spreadsheet it
      left, in any environment: the rerun passes over every row it already
      recorded and invokes the anonymiser for no row above the one it
      stopped at. */
  lemma StoppedRerun(cfg: Config, env: Env, env': Env, sheet: Sheet, k: nat, barcodes: set<string>, barcodes': set<string>)
    requires k <= |sheet.rows|
    requires !Process(cfg, env, sheet, k, barcodes).outcome.Finished?
    ensures var r := Process(cfg, env, sheet, k, barcodes);
      InvokedFrom(Process(cfg, env', r.sheet, k, barcodes').trace, StopRow(r.outcome))
  {
    var r := Process(cfg, env, sheet, k, barcodes);
    StopsAtPendingRow(cfg, env, sheet, k, barcodes);
    SkipsStatusRows(cfg, env', r.sheet, k, StopRow(r.outcome) - FirstDataRow, barcodes');
  }

  /** The whole of `anonymize`, run again on the spreadsheet a stopped run
      of a valid ledger left, invokes the anonymiser for no row above the
      one the first run stopped at. */
  lemma AnonymizeResumes(cfg: Config, env: Env, env': Env, sheet: Sheet)
    requires CheckWorksheet(sheet.header).Ok? && ValidLedger(sheet.rows)
    requires !Anonymize(cfg, env, sheet).outcome.Finished?
    ensures var r := Anonymize(cfg, env, sheet);
      InvokedFrom(Anonymize(cfg, env', r.sheet).trace, StopRow(r.outcome))
  {
    var barcodes := ValidateAnonymizationData(sheet.rows).value;
    var r := Process(cfg, env, sheet, 0, barcodes);
    assert Anonymize(cfg, env, sheet) == r;
    if CheckWorksheet(r.sheet.header).Ok? && ValidLedger(r.sheet.rows) {
      var barcodes' := ValidateAnonymizationData(r.sheet.rows).value;
      assert Anonymize(cfg, env', r.sheet) == Process(cfg, env', r.sheet, 0, barcodes');
      StoppedRerun(cfg, env, env', sheet, 0, barcodes, barcodes');
    }
  }

  /** The snapshot of the last save in `trace`, or `initial` when nothing
      was saved: the workbook on disk after the events of `trace`. */
  function LastSaved(trace: seq<Event>, initial: Sheet): Sheet {
    if |trace| == 0 then initial
    else if trace[|trace| - 1].Saved? then trace[|trace| - 1].snapshot
    else LastSaved(trace[..|trace| - 1], initial)
  }

  lemma {:induction false} LastSavedAppend(a: seq<Event>, b: seq<Event>, initial: Sheet)
    ensures LastSaved(a + b, initial) == LastSaved(b, LastSaved(a, initial))
    decreases |b|
  {
    if |b| == 0 {
      assert a + b == a;
    } else {
      assert (a + b)[..|a + b| - 1] == a + b[..|b| - 1];
      LastSavedAppend(a, b[..|b| - 1], initial);
    }
  }

  lemma {:induction false} LastSavedNone(events: seq<Event>, initial: Sheet)
    requires forall j :: 0 <= j < |events| ==> events[j].Anonymized?
    ensures LastSaved(events, initial) == initial
  {
    if |events| > 0 {
      LastSavedNone(events[..|events| - 1], initial);
    }
  }

  /** The spreadsheet a run of the loop ends with, however it ends, is the
      workbook it saved last, or the one it started from when it saved
      nothing: a halt or a failure loses no change made in memory, so a
      rerun starts from the spreadsheet the run left. */
  lemma {:induction false} SavedWorkbook(cfg: Config, env: Env, sheet: Sheet, k: nat, barcodes: set<string>)
    requires k <= |sheet.rows|
    ensures var r := Process(cfg, env, sheet, k, barcodes);
      LastSaved(r.trace, sheet) == r.sheet
    decreases |sheet.rows| - k
  {
    if k < |sheet.rows| {
      var r := Process(cfg, env, sheet, k, barcodes);
      if sheet.rows[k].status != "" {
        SavedWorkbook(cfg, env, sheet, k + 1, barcodes);
        var rest := Process(cfg, env, sheet, k + 1, barcodes);
        assert r.sheet == rest.sheet;
        assert r.trace == rest.trace || r.trace == [Saved(sheet)] + rest.trace;
        LastSavedAppend([Saved(sheet)], rest.trace, sheet);
      } else {
        var step := PendingStep(cfg, env, sheet, k);
        if step.Expand? {
          var sheet' := Expanded(cfg, env, sheet, k);
          var b' := barcodes + StepBarcodes(cfg, env, sheet, k);
          SavedWorkbook(cfg, env, sheet', Resumed(cfg, env, sheet, k), b');
          var rest := Process(cfg, env, sheet', Resumed(cfg, env, sheet, k), b');
          assert r.sheet == rest.sheet;
          assert r.trace == (step.events + [Saved(sheet')]) + rest.trace;
          LastSavedAppend(step.events + [Saved(sheet')], rest.trace, sheet);
        } else {
          assert r.trace == step.events && r.sheet == sheet;
          LastSavedNone(step.events, sheet);
        }
      }
    }
  }
}

=== FILE: slides.dfy ===
/** `get_slides`: the slides of a case, one per sub-directory of the case
    directory. Each sub-directory is named BLOCK_STAIN and holds exactly
    one slide file (".svs" or ".ndpi").

    The file system enters as a listing: the case directory's
    sub-directories in the order the directory walk returns them, each
    with the names of the plain files directly inside it.
 */
module Slides {
  import opened Outcomes
  import opened Text

  /** One sub-directory of a case directory and the files it holds. */
  datatype SlideDir = SlideDir(name: string, files: seq<string>)

  /** A slide to anonymise: its block, its stain and the path of its file. */
  datatype Slide = Slide(block: string, stain: string, origfile: string)

  /** The file types taken for slides; the comparison is case-sensitive. */
  const SlideFileTypes: seq<string> := [".svs", ".ndpi"]

  predicate IsSlideFile(f: string) {
    Extension(f) in SlideFileTypes
  }

  /** `files(directory, '.svs', '.ndpi')`: the slide files, in listing order. */
  function SlideFiles(files: seq<string>): (r: seq<string>)
    ensures |r| <= |files|
    ensures forall f :: f in r <==> f in files && IsSlideFile(f)
  {
    if |files| == 0 then []
    else
      var rest := SlideFiles(files[..|files| - 1]);
      var f := files[|files| - 1];
      if IsSlideFile(f) then rest + [f] else rest
  }

  /** The selection keeps listing order and repetitions: the slide files
      of two listings one after the other are those of the first followed
      by those of the second, and a single file is kept exactly when it is
      a slide file. */
  lemma {:induction false} SlideFilesAppend(a: seq<string>, b: seq<string>)
    ensures SlideFiles(a + b) == SlideFiles(a) + SlideFiles(b)
    decreases |b|
  {
    if |b| == 0 {
      assert a + b == a;
    } else {
      var init := b[..|b| - 1];
      var f := b[|b| - 1];
      assert (a + b)[..|a + b| - 1] == a + init;
      assert (a + b)[|a + b| - 1] == f;
      var kept := if IsSlideFile(f) then [f] else [];
      assert SlideFiles(a + b) == SlideFiles(a + init) + kept;
      assert SlideFiles(b) == SlideFiles(init) + kept;
      SlideFilesAppend(a, init);
    }
  }

  lemma SlideFilesSingle(f: string)
    ensures SlideFiles([f]) == if IsSlideFile(f) then [f] else []
  {
    assert [f][..0] == [];
  }

  /** The slide of one sub-directory, or the error it raises. Directory
      names are split at '_': without one the name is rejected with the
      BLOCK_STAIN message; with more than one the script's two-way
      unpacking fails. A directory without exactly one slide file is
      rejected with the count of those it holds. */
  function SlideOf(row: int, casedir: string, d: SlideDir): (r: Result<Slide>)
    ensures '_' !in d.name ==> r == Err(Error(row, SlideDirUnnamed(d.name, Basename(casedir))))
    ensures '_' in d.name && |Split(d.name, '_')| == 2 && |SlideFiles(d.files)| != 1 ==>
      r == Err(Error(row, SlideFileCount(d.name, Basename(casedir), SlideFiles(d.files))))
  {
    var parts := Split(d.name, '_');
    if '_' !in d.name then Err(Error(row, SlideDirUnnamed(d.name, Basename(casedir))))
    else if |parts| != 2 then Err(Error(row, SlideDirSplit(d.name)))
    else
      var found := SlideFiles(d.files);
      if |found| != 1 then Err(Error(row, SlideFileCount(d.name, Basename(casedir), found)))
      else Ok(Slide(parts[0], parts[1], JoinPath(JoinPath(casedir, d.name), found[0])))
  }

  /** A sub-directory yields a slide exactly when its name holds one '_'
      and it holds one slide file; the slide's block and stain are the two
      halves of the name, and its path is that file's inside the
      sub-directory. */
  lemma SlideOfCharacterized(row: int, casedir: string, d: SlideDir)
    ensures SlideOf(row, casedir, d).Ok? <==> multiset(d.name)['_'] == 1 && |SlideFiles(d.files)| == 1
    ensures SlideOf(row, casedir, d).Ok? ==>
      var s := SlideOf(row, casedir, d).value;
      && s.block + "_" + s.stain == d.name
      && '_' !in s.block && '_' !in s.stain
      && s.origfile == JoinPath(JoinPath(casedir, d.name), SlideFiles(d.files)[0])
      && SlideFiles(d.files)[0] in d.files && IsSlideFile(SlideFiles(d.files)[0])
    ensures multiset(d.name)['_'] > 1 ==> SlideOf(row, casedir, d) == Err(Error(row, SlideDirSplit(d.name)))
    ensures multiset(d.name)['_'] == 1 && |SlideFiles(d.files)| != 1 ==>
      SlideOf(row, casedir, d) == Err(Error(row, SlideFileCount(d.name, Basename(casedir), SlideFiles(d.files))))
  {
    var parts := Split(d.name, '_');
    SplitJoin(d.name, '_');
    if |parts| == 2 {
      assert parts[..1] == [parts[0]];
      assert Join(parts, '_') == parts[0] + "_" + parts[1];
    }
    if '_' in d.name {
      assert multiset(d.name)['_'] > 0;
    }
    if multiset(d.name)['_'] > 0 {
      assert '_' in multiset(d.name);
    }
    var found := SlideFiles(d.files);
    if |found| == 1 {
      assert found[0] in found;
    }
  }

  /** The position of the first sub-directory that yields no slide, or the
      number of sub-directories when all do. */
  function FirstUnusable(row: int, casedir: string, listing: seq<SlideDir>): (k: nat)
    ensures k <= |listing|
    ensures forall m :: 0 <= m < k ==> SlideOf(row, casedir, listing[m]).Ok?
    ensures k < |listing| ==> SlideOf(row, casedir, listing[k]).Err?
  {
    if |listing| == 0 then 0
    else if SlideOf(row, casedir, listing[0]).Err? then 0
    else
      var k := FirstUnusable(row, casedir, listing[1..]);
      assert forall m :: 1 <= m < |listing| ==> listing[1..][m - 1] == listing[m];
      k + 1
  }

  /** `get_slides`: the slide of every sub-directory in listing order, or
      the error of the first sub-directory that has none. */
  function GetSlides(row: int, casedir: string, listing: seq<SlideDir>): (r: Result<seq<Slide>>)
    ensures r.Ok? <==> forall j :: 0 <= j < |listing| ==> SlideOf(row, casedir, listing[j]).Ok?
    ensures r.Ok? ==> (|r.value| == |listing|
      && forall j :: 0 <= j < |listing| ==> r.value[j] == SlideOf(row, casedir, listing[j]).value)
    ensures r.Err? ==> exists j :: (0 <= j < |listing|
      && (forall m :: 0 <= m < j ==> SlideOf(row, casedir, listing[m]).Ok?)
      && SlideOf(row, casedir, listing[j]) == Err(r.error))
  {
    var k := FirstUnusable(row, casedir, listing);
    if k < |listing| then Err(SlideOf(row, casedir, listing[k]).error)
    else Ok(seq(|listing|, j requires 0 <= j < |listing| => SlideOf(row, casedir, listing[j]).value))
  }
}

=== FILE: text.dfy ===
/** String helpers the anonymiser relies on: decimal numerals, prefixes and
    suffixes, last-occurrence splitting, POSIX path joining and extensions.

    Characters are compared as code points; only ASCII digits and ASCII
    letters are given a meaning (see the README for what `int()` and
    `str.lower` do beyond that).
 */
module Text {

  predicate IsDigit(c: char) {
    '0' <= c <= '9'
  }

  predicate AllDigits(s: string) {
    forall k :: 0 <= k < |s| ==> IsDigit(s[k])
  }

  function DigitValue(c: char): nat
    requires IsDigit(c)
  {
    c as int - '0' as int
  }

  function DigitChar(d: nat): char
    requires d < 10
  {
    ('0' as int + d) as char
  }

  /** The value of a decimal numeral, most significant digit first. */
  function DecimalValue(s: string): nat
    requires AllDigits(s)
  {
    if |s| == 0 then 0 else DecimalValue(s[..|s| - 1]) * 10 + DigitValue(s[|s| - 1])
  }

  function Pow10(n: nat): nat {
    if n == 0 then 1 else 10 * Pow10(n - 1)
  }

  /** `n` written with exactly `width` decimal digits, padded with leading
      zeros (digits above `width` are dropped). */
  function ZeroPad(n: nat, width: nat): (s: string)
    ensures |s| == width && AllDigits(s)
  {
    if width == 0 then "" else ZeroPad(n / 10, width - 1) + [DigitChar(n % 10)]
  }

  /** A numeral of `w` digits denotes a number below 10^w. */
  lemma {:induction false} DecimalValueBound(s: string)
    requires AllDigits(s)
    ensures DecimalValue(s) < Pow10(|s|)
  {
    if |s| > 0 {
      DecimalValueBound(s[..|s| - 1]);
    }
  }

  /** Reading back a zero-padded numeral yields the number it was made from. */
  lemma {:induction false} ZeroPadRoundTrip(n: nat, width: nat)
    requires n < Pow10(width)
    ensures DecimalValue(ZeroPad(n, width)) == n
  {
    if width > 0 {
      ZeroPadRoundTrip(n / 10, width - 1);
      var s := ZeroPad(n, width);
      assert s[..|s| - 1] == ZeroPad(n / 10, width - 1);
    }
  }

  /** Zero-padding the value of a numeral to its own width gives the numeral
      back: leading zeros are exactly what the padding restores. */
  lemma {:induction false} DecimalRoundTrip(s: string)
    requires AllDigits(s)
    ensures ZeroPad(DecimalValue(s), |s|) == s
  {
    if |s| > 0 {
      var init := s[..|s| - 1];
      DecimalRoundTrip(init);
      var v := DecimalValue(s);
      assert v / 10 == DecimalValue(init);
      assert v % 10 == DigitValue(s[|s| - 1]);
      assert s == init + [s[|s| - 1]];
    }
  }

  predicate StartsWith(s: string, p: string) {
    |p| <= |s| && s[..|p|] == p
  }

  predicate EndsWith(s: string, q: string) {
    |q| <= |s| && s[|s| - |q|..] == q
  }

  /** Length of the longest run of digits that ends `s`. */
  function TrailingDigits(s: string): (n: nat)
    ensures n <= |s|
    ensures AllDigits(s[|s| - n..])
    ensures n < |s| ==> !IsDigit(s[|s| - n - 1])
  {
    if |s| == 0 || !IsDigit(s[|s| - 1]) then 0 else TrailingDigits(s[..|s| - 1]) + 1
  }

  /** Position of the last occurrence of `c` in `s`, or -1 when there is none. */
  function LastIndex(s: string, c: char): (r: int)
    ensures -1 <= r < |s|
    ensures r >= 0 ==> s[r] == c
  {
    if |s| == 0 then -1
    else if s[|s| - 1] == c then |s| - 1
    else LastIndex(s[..|s| - 1], c)
  }

  /** No occurrence of `c` follows the one `LastIndex` finds. */
  lemma {:induction false} LastIndexIsLast(s: string, c: char)
    ensures forall k :: LastIndex(s, c) < k < |s| ==> s[k] != c
  {
    if |s| > 0 && s[|s| - 1] != c {
      LastIndexIsLast(s[..|s| - 1], c);
    }
  }

  /** Everything after the last `/` (POSIX `os.path.basename`). */
  function Basename(p: string): string {
    p[LastIndex(p, '/') + 1..]
  }

  /** The basename is the longest suffix of the path without a `/`. */
  lemma BasenameIsLastComponent(p: string)
    ensures EndsWith(p, Basename(p))
    ensures forall j :: 0 <= j < |Basename(p)| ==> Basename(p)[j] != '/'
    ensures |Basename(p)| < |p| ==> p[|p| - |Basename(p)| - 1] == '/'
  {
    LastIndexIsLast(p, '/');
  }

  /** `s.split(c)`: the fields between the occurrences of `c`. */
  function Split(s: string, c: char): (fs: seq<string>)
    ensures |fs| >= 1
  {
    var k := LastIndex(s, c);
    if k < 0 then [s] else Split(s[..k], c) + [s[k + 1..]]
  }

  /** `c.join(fs)`. */
  function Join(fs: seq<string>, c: char): string
    requires |fs| >= 1
  {
    if |fs| == 1 then fs[0] else Join(fs[..|fs| - 1], c) + [c] + fs[|fs| - 1]
  }

  /** Splitting yields one more field than there are separators, no field
      holds a separator, and joining the fields gives the string back. */
  lemma {:induction false} SplitJoin(s: string, c: char)
    ensures |Split(s, c)| == multiset(s)[c] + 1
    ensures forall j :: 0 <= j < |Split(s, c)| ==> c !in Split(s, c)[j]
    ensures Join(Split(s, c), c) == s
  {
    SplitCount(s, c);
    SplitFieldsClean(s, c);
    SplitRejoins(s, c);
  }

  lemma {:induction false} SplitCount(s: string, c: char)
    ensures |Split(s, c)| == multiset(s)[c] + 1
  {
    var k := LastIndex(s, c);
    LastIndexIsLast(s, c);
    if k < 0 {
      assert forall j :: 0 <= j < |s| ==> s[j] != c;
      assert c !in multiset(s);
    } else {
      SplitCount(s[..k], c);
      assert s == s[..k] + [c] + s[k + 1..];
      assert c !in s[k + 1..];
      assert multiset(s) == multiset(s[..k]) + multiset{c} + multiset(s[k + 1..]);
    }
  }

  lemma {:induction false} SplitFieldsClean(s: string, c: char)
    ensures forall j :: 0 <= j < |Split(s, c)| ==> c !in Split(s, c)[j]
  {
    var k := LastIndex(s, c);
    LastIndexIsLast(s, c);
    if k >= 0 {
      SplitFieldsClean(s[..k], c);
      assert c !in s[k + 1..];
    }
  }

  lemma {:induction false} SplitRejoins(s: string, c: char)
    ensures Join(Split(s, c), c) == s
  {
    var k := LastIndex(s, c);
    if k >= 0 {
      var fs := Split(s, c);
      SplitRejoins(s[..k], c);
      assert fs[..|fs| - 1] == Split(s[..k], c);
      assert s == s[..k] + [c] + s[k + 1..];
    }
  }

  lemma {:induction false} SplitSnoc(x: string, y: string, c: char)
    requires c !in y
    ensures Split(x + [c] + y, c) == Split(x, c) + [y]
  {
    var s := x + [c] + y;
    var k := LastIndex(s, c);
    LastIndexIsLast(s, c);
    assert s[|x|] == c;
    assert forall j :: |x| < j < |s| ==> s[j] == y[j - |x| - 1];
    assert k == |x|;
    assert s[..k] == x;
    assert s[k + 1..] == y;
  }

  /** Joining fields free of the separator and splitting again gives the
      fields back. */
  lemma {:induction false} JoinSplit(fs: seq<string>, c: char)
    requires |fs| >= 1
    requires forall j :: 0 <= j < |fs| ==> c !in fs[j]
    ensures Split(Join(fs, c), c) == fs
  {
    if |fs| == 1 {
      LastIndexNone(fs[0], c);
    } else {
      var init := fs[..|fs| - 1];
      JoinSplit(init, c);
      SplitSnoc(Join(init, c), fs[|fs| - 1], c);
      assert fs == init + [fs[|fs| - 1]];
    }
  }

  lemma LastIndexNone(s: string, c: char)
    requires c !in s
    ensures LastIndex(s, c) == -1
  {
  }

  /** `s.rsplit(c, 1)[0]`: the text before the last `c`, or all of `s`. */
  function BeforeLast(s: string, c: char): string {
    var k := LastIndex(s, c);
    if k < 0 then s else s[..k]
  }

  /** Splitting at the last `c` leaves no `c` after the cut; without a `c`
      nothing is cut. */
  lemma BeforeLastSplits(s: string, c: char)
    ensures c in s ==> |BeforeLast(s, c)| < |s| && s == BeforeLast(s, c) + [c] + s[|BeforeLast(s, c)| + 1..]
    ensures c in s ==> forall j :: |BeforeLast(s, c)| < j < |s| ==> s[j] != c
    ensures c !in s ==> BeforeLast(s, c) == s
  {
    LastIndexIsLast(s, c);
    var k := LastIndex(s, c);
    if k >= 0 {
      assert s == s[..k] + [c] + s[k + 1..];
    }
  }

  function LowerChar(c: char): char {
    if 'A' <= c <= 'Z' then (c as int + 32) as char else c
  }

  /** ASCII lower-casing. */
  function Lower(s: string): (r: string)
    ensures |r| == |s|
  {
    seq(|s|, k requires 0 <= k < |s| => LowerChar(s[k]))
  }

  /** POSIX `os.path.join(a, b)`. */
  function JoinPath(a: string, b: string): string {
    if StartsWith(b, "/") then b
    else if a == "" || EndsWith(a, "/") then a + b
    else a + "/" + b
  }

  /** POSIX `os.path.splitext(p)[1]`: from the last `.` of the final path
      component on, unless everything before that dot in the component is
      dots too. */
  function Extension(p: string): string {
    var dot := LastIndex(p, '.');
    var sep := LastIndex(p, '/');
    if dot > sep && exists k :: sep < k < dot && p[k] != '.' then p[dot..] else ""
  }

  /** An occurrence of `c` with none after it is the one `LastIndex`
      finds. */
  lemma LastIndexAt(s: string, c: char, j: nat)
    requires j < |s| && s[j] == c
    requires forall k :: j < k < |s| ==> s[k] != c
    ensures LastIndex(s, c) == j
  {
    LastIndexIsLast(s, c);
  }

  /** Joining a directory and a name without `/` and taking the basename
      gives the name back, whether or not the directory ends in `/`. */
  lemma BasenameOfJoin(a: string, b: string)
    requires '/' !in b
    ensures Basename(JoinPath(a, b)) == b
  {
    var p := JoinPath(a, b);
    assert !StartsWith(b, "/") by {
      if |b| > 0 { assert b[0] in b; }
    }
    if a == "" {
      assert p == b;
      LastIndexNone(b, '/');
    } else if EndsWith(a, "/") {
      assert a[|a| - 1..] == "/";
      assert p == a + b && p[|a| - 1] == '/';
      assert forall k :: |a| - 1 < k < |p| ==> p[k] == b[k - |a|];
      LastIndexAt(p, '/', |a| - 1);
      assert p[|a|..] == b;
    } else {
      assert p == a + "/" + b && p[|a|] == '/';
      assert forall k :: |a| < k < |p| ==> p[k] == b[k - |a| - 1];
      LastIndexAt(p, '/', |a|);
      assert p[|a| + 1..] == b;
    }
  }

  /** The extension of a file name `stem.ext` whose `ext` holds no `.` is
      `.ext`, unless the stem is empty or all dots (a hidden file such as
      ".svs" has no extension). */
  lemma ExtensionOfName(stem: string, ext: string)
    requires '/' !in stem && '/' !in ext && '.' !in ext
    ensures Extension(stem + "." + ext) == if exists k :: 0 <= k < |stem| && stem[k] != '.' then "." + ext else ""
  {
    var p := stem + "." + ext;
    assert p[|stem|] == '.';
    assert forall k :: |stem| < k < |p| ==> p[k] == ext[k - |stem| - 1];
    LastIndexAt(p, '.', |stem|);
    assert '/' !in p by {
      assert forall k :: 0 <= k < |p| ==> p[k] != '/' by {
        forall k | 0 <= k < |p| ensures p[k] != '/' {
          if k < |stem| { assert p[k] == stem[k]; }
          else if k > |stem| { assert p[k] == ext[k - |stem| - 1]; }
        }
      }
    }
    LastIndexNone(p, '/');
    assert forall k :: 0 <= k < |stem| ==> p[k] == stem[k];
    assert p[|stem|..] == "." + ext;
  }

  /** The cases `os.path.splitext` tells apart. */
  lemma ExtensionExamples()
    ensures Extension("a.svs") == ".svs"
    ensures Extension("a.b.svs") == ".svs"
    ensures Extension("a") == ""
  {
    assert "a.svs" == "a" + "." + "svs";
    assert "a"[0] != '.';
    ExtensionOfName("a", "svs");
    assert "a.b.svs" == "a.b" + "." + "svs";
    assert "a.b"[0] != '.';
    ExtensionOfName("a.b", "svs");
    LastIndexNone("a", '.');
  }

  /** A name made of dots and a suffix only is hidden, not extended. */
  lemma ExtensionOfHiddenName()
    ensures Extension(".svs") == ""
    ensures Extension("..svs") == ""
  {
    assert ".svs" == "" + "." + "svs";
    ExtensionOfName("", "svs");
    assert "..svs" == "." + "." + "svs";
    assert forall k :: 0 <= k < |"."| ==> "."[k] == '.';
    ExtensionOfName(".", "svs");
  }

  /** A dot in a directory name is no extension of the file below it. */
  lemma ExtensionInDirectory()
    ensures Extension("d.x/f") == ""
  {
    LastIndexAt("d.x/f", '/', 3);
    LastIndexAt("d.x/f", '.', 1);
  }
}

=== FILE: validation.dfy ===
/** `validate_anonymization_data`: one forward pass over the data rows that
    either fails on the first offending row or returns the barcodes of all
    done rows.

    The pass is `Scan`, a fold of `ValidateRow` over the rows. Next to it
    stands `ValidLedger`, a declarative statement of what every row must
    satisfy given the rows above it; `ScanCharacterized` proves that the
    fold succeeds exactly on the ledgers `ValidLedger` accepts.
 */
module Validation {
  import opened Outcomes
  import opened Text
  import opened Ledger
  import opened AnonIds

  /** A row takes part in validation unless its status is "ignore" (in any
      letter case). */
  predicate Active(r: Row) {
    Lower(r.status) != "ignore"
  }

  /** A row whose status is "done" (in any letter case). */
  predicate IsDone(r: Row) {
    Lower(r.status) == "done"
  }

  lemma DoneIsActive(r: Row)
    ensures IsDone(r) ==> Active(r) && r.status != ""
  {
    if IsDone(r) {
      assert Lower(r.status)[0] == 'd';
    }
  }

  /** What the pass has learnt from the rows above the current one. */
  datatype Tally = Tally(
    anonids: map<string, string>,   // case id -> AnonID
    caseids: map<string, string>,   // AnonID -> case id
    caseRows: map<string, int>,     // case id -> row it was last seen on
    barcodeRows: map<string, int>,  // barcode -> done row carrying it
    done: set<string>,              // case ids seen on done rows
    format: Option<Format>,         // fixed by the first AnonID
    number: int)                    // AnonID number of the previous row

  const Start: Tally := Tally(map[], map[], map[], map[], {}, None, 0)

  // ---------------------------------------------------------------------
  // The pass, as `validate_anonymization_data` performs it
  // ---------------------------------------------------------------------

  /** The status column. Only "done" is accepted besides an empty status;
      a done row needs an AnonID, a Block and a Stain, and a barcode no
      earlier done row has. Returns the barcode table with this row added. */
  function CheckStatus(t: Tally, i: int, r: Row): (res: Result<map<string, int>>)
    ensures res.Ok? <==> ((r.status == "" || IsDone(r))
      && (IsDone(r) ==> r.anonid != "" && r.block != "" && r.stain != "" && BarcodeOf(r) !in t.barcodeRows))
    ensures res.Ok? ==> res.value.Keys == t.barcodeRows.Keys + (if IsDone(r) then {BarcodeOf(r)} else {})
    ensures r.status != "" && !IsDone(r) ==> res == Err(Error(i, UnknownStatus(r.status)))
    ensures IsDone(r) && (r.anonid == "" || r.block == "" || r.stain == "") ==>
      res == Err(Error(i, DoneFieldsMissing))
    ensures IsDone(r) && r.anonid != "" && r.block != "" && r.stain != "" && BarcodeOf(r) in t.barcodeRows ==>
      res == Err(Error(i, DuplicateBarcode(BarcodeOf(r), t.barcodeRows[BarcodeOf(r)])))
    ensures res.Err? ==> res.error.row == i
  {
    DoneIsActive(r);
    if r.status == "" then Ok(t.barcodeRows)
    else if Lower(r.status) != "done" then Err(Error(i, UnknownStatus(r.status)))
    else if !(r.anonid != "" && r.block != "" && r.stain != "") then Err(Error(i, DoneFieldsMissing))
    else if BarcodeOf(r) in t.barcodeRows then
      Err(Error(i, DuplicateBarcode(BarcodeOf(r), t.barcodeRows[BarcodeOf(r)])))
    else Ok(t.barcodeRows[BarcodeOf(r) := i])
  }

  /** The AnonID column. It must be present; the first one fixes the
      format, and each must conform to it with a number no smaller than the
      previous row's. Returns the format and this row's number. */
  function CheckAnonId(t: Tally, i: int, r: Row): (res: Result<(Format, int)>)
    ensures r.anonid == "" ==> res == Err(Error(i, NoAnonId))
    ensures res.Ok? ==> Conforms(r.anonid, res.value.0) && res.value.1 == AnonNumber(r.anonid, res.value.0)
    ensures res.Ok? ==> t.number <= res.value.1
    ensures res.Ok? && t.format.Some? ==> res.value.0 == t.format.value
    ensures res.Err? ==> res.error.row == i
    ensures r.anonid != "" && t.format.None? && ParseAnonId(i, r.anonid).Err? ==>
      res == Err(Error(i, AnonIdNoNumber(r.anonid)))
    ensures r.anonid != "" && (t.format.Some? || ParseAnonId(i, r.anonid).Ok?) ==>
      var f := if t.format.Some? then t.format.value else ParseAnonId(i, r.anonid).value;
      && (res.Ok? <==> Conforms(r.anonid, f) && t.number <= AnonNumber(r.anonid, f))
      && (res.Ok? ==> res.value == (f, AnonNumber(r.anonid, f)))
      && (res.Err? ==> res == Err(ValidateAnonIdNumber(i, r.anonid, f, t.number).error))
  {
    if r.anonid == "" then Err(Error(i, NoAnonId))
    else
      var f :- if t.format.None? then ParseAnonId(i, r.anonid) else Ok(t.format.value);
      var number :- ValidateAnonIdNumber(i, r.anonid, f, t.number);
      Ok((f, number))
  }

  /** The Case column. A row with a case id must agree with the two-way
      AnonID map; its case id may repeat only on a done row after an
      earlier done row of that case; a row not done must leave OrigFile,
      Block and Stain empty. A row without a case id must be done. */
  function CheckCase(t: Tally, i: int, r: Row, barcodeRows: map<string, int>, f: Format, number: int)
    : (res: Result<Tally>)
    ensures res.Ok? <==>
      if CaseIdOf(r) == "" then IsDone(r)
      else
        && Admits(t.caseids, r.anonid, CaseIdOf(r)) && Admits(t.anonids, CaseIdOf(r), r.anonid)
        && (CaseIdOf(r) in t.caseRows ==> IsDone(r) && CaseIdOf(r) in t.done)
        && (!IsDone(r) ==> r.origfile == "" && r.block == "" && r.stain == "")
    ensures CaseIdOf(r) == "" && !IsDone(r) ==> res == Err(Error(i, NoCase))
    ensures res.Ok? ==> (res.value.barcodeRows == barcodeRows && res.value.format == Some(f)
      && res.value.number == number)
    ensures (CaseIdOf(r) != "" && Admits(t.caseids, r.anonid, CaseIdOf(r)) && Admits(t.anonids, CaseIdOf(r), r.anonid)
      && CaseIdOf(r) in t.caseRows && !(IsDone(r) && CaseIdOf(r) in t.done)) ==>
      res == Err(Error(i, CaseNotUnique(CaseIdOf(r), t.caseRows[CaseIdOf(r)])))
    ensures CaseIdOf(r) != "" && ValidateIdMapping(i, CaseIdOf(r), r.anonid, t.caseids, t.anonids).Err? ==>
      res == Err(ValidateIdMapping(i, CaseIdOf(r), r.anonid, t.caseids, t.anonids).error)
    ensures (CaseIdOf(r) != "" && Admits(t.caseids, r.anonid, CaseIdOf(r)) && Admits(t.anonids, CaseIdOf(r), r.anonid)
      && (CaseIdOf(r) in t.caseRows ==> IsDone(r) && CaseIdOf(r) in t.done)
      && !IsDone(r) && (r.origfile != "" || r.block != "" || r.stain != "")) ==>
      res == Err(Error(i, GarbageColumns))
    ensures res.Err? ==> res.error.row == i
  {
    var caseid := CaseIdOf(r);
    if caseid != "" then
      var maps :- ValidateIdMapping(i, caseid, r.anonid, t.caseids, t.anonids);
      if caseid in t.caseRows && !(IsDone(r) && caseid in t.done) then
        Err(Error(i, CaseNotUnique(caseid, t.caseRows[caseid])))
      else if !IsDone(r) && (r.origfile != "" || r.block != "" || r.stain != "") then
        Err(Error(i, GarbageColumns))
      else
        Ok(Tally(maps.1, maps.0, t.caseRows[caseid := i], barcodeRows,
                 if IsDone(r) then t.done + {caseid} else t.done, Some(f), number))
    else if !IsDone(r) then Err(Error(i, NoCase))
    else Ok(t.(barcodeRows := barcodeRows, format := Some(f), number := number))
  }

  /** One iteration of the loop, for spreadsheet row `i`. An ignored row
      passes untouched; any other row goes through the three checks. */
  function ValidateRow(t: Tally, i: int, r: Row): (res: Result<Tally>)
    ensures !Active(r) ==> res == Ok(t)
    ensures Active(r) && r.status != "" && !IsDone(r) ==> res == Err(Error(i, UnknownStatus(r.status)))
    ensures Active(r) && r.anonid == "" ==> res.Err?
    ensures res.Err? ==> res.error.row == i
  {
    if !Active(r) then Ok(t)
    else
      var barcodeRows :- CheckStatus(t, i, r);
      var checked :- CheckAnonId(t, i, r);
      CheckCase(t, i, r, barcodeRows, checked.0, checked.1)
  }

  /** The loop over all data rows, as a fold from the top. */
  function Scan(rows: seq<Row>): Result<Tally> {
    if |rows| == 0 then Ok(Start)
    else
      var t :- Scan(rows[..|rows| - 1]);
      ValidateRow(t, FirstDataRow + |rows| - 1, rows[|rows| - 1])
  }

  /** `validate_anonymization_data`: succeeds exactly on valid ledgers, and
      then returns the barcodes of the done rows. */
  function ValidateAnonymizationData(rows: seq<Row>): (r: Result<set<string>>)
    ensures r.Ok? <==> ValidLedger(rows)
    ensures r.Ok? ==> r.value == DoneBarcodes(rows)
    ensures r.Err? ==> exists k :: (0 <= k < |rows| && ValidLedger(rows[..k])
      && !Acceptable(rows[..k], rows[k]) && r.error.row == FirstDataRow + k)
  {
    ScanCharacterized(rows);
    ScanRejects(rows);
    var t :- Scan(rows);
    Ok(t.barcodeRows.Keys)
  }

  // ---------------------------------------------------------------------
  // The declarative reference: what a valid ledger is
  // ---------------------------------------------------------------------

  function DoneBarcodes(rows: seq<Row>): set<string> {
    set j | 0 <= j < |rows| && IsDone(rows[j]) :: BarcodeOf(rows[j])
  }

  /** Case ids of the rows that take part and have one. */
  function CaseIds(rows: seq<Row>): set<string> {
    set j | 0 <= j < |rows| && Active(rows[j]) && CaseIdOf(rows[j]) != "" :: CaseIdOf(rows[j])
  }

  function DoneCaseIds(rows: seq<Row>): set<string> {
    set j | 0 <= j < |rows| && IsDone(rows[j]) && CaseIdOf(rows[j]) != "" :: CaseIdOf(rows[j])
  }

  /** AnonIDs of the rows that take part and have a case id. */
  function PairedAnonIds(rows: seq<Row>): set<string> {
    set j | 0 <= j < |rows| && Active(rows[j]) && CaseIdOf(rows[j]) != "" :: rows[j].anonid
  }

  /** Index of the first row that takes part, or -1. */
  function FirstActive(rows: seq<Row>): (k: int)
    ensures -1 <= k < |rows|
    ensures k >= 0 ==> Active(rows[k])
    ensures forall j :: 0 <= j < |rows| && (k < 0 || j < k) ==> !Active(rows[j])
  {
    if |rows| == 0 then -1
    else
      var k := FirstActive(rows[..|rows| - 1]);
      if k >= 0 then k else if Active(rows[|rows| - 1]) then |rows| - 1 else -1
  }

  /** Index of the last row that takes part, or -1. */
  function LastActive(rows: seq<Row>): (k: int)
    ensures -1 <= k < |rows|
    ensures k >= 0 ==> Active(rows[k])
    ensures forall j :: k < j < |rows| ==> !Active(rows[j])
  {
    if |rows| == 0 then -1
    else if Active(rows[|rows| - 1]) then |rows| - 1
    else LastActive(rows[..|rows| - 1])
  }

  /** The AnonID that fixes the format for row `r` below `earlier`: the
      first one among the rows that take part, `r`'s own if none above. */
  function HeadAnonId(earlier: seq<Row>, r: Row): string {
    var first := FirstActive(earlier);
    if first >= 0 then earlier[first].anonid else r.anonid
  }

  predicate StatusAcceptable(earlier: seq<Row>, r: Row) {
    && (r.status == "" || IsDone(r))
    && (IsDone(r) ==> r.anonid != "" && r.block != "" && r.stain != "" && BarcodeOf(r) !in DoneBarcodes(earlier))
  }

  predicate AnonIdAcceptable(earlier: seq<Row>, r: Row) {
    var f := FormatOf(HeadAnonId(earlier, r));
    && r.anonid != ""
    && f.digits > 0
    && Conforms(r.anonid, f)
    && (forall j :: 0 <= j < |earlier| && Active(earlier[j]) ==>
          AnonNumber(earlier[j].anonid, f) <= AnonNumber(r.anonid, f))
  }

  predicate CaseAcceptable(earlier: seq<Row>, r: Row) {
    var caseid := CaseIdOf(r);
    && (caseid == "" ==> IsDone(r))
    && (caseid != "" ==>
          && PairsConsistently(earlier, r)
          && (caseid in CaseIds(earlier) ==> IsDone(r) && caseid in DoneCaseIds(earlier))
          && (!IsDone(r) ==> r.origfile == "" && r.block == "" && r.stain == ""))
  }

  /** Every row above that takes part and has a case id shares `r`'s
      AnonID exactly when it shares `r`'s case id. */
  predicate PairsConsistently(earlier: seq<Row>, r: Row) {
    forall j :: 0 <= j < |earlier| && Active(earlier[j]) && CaseIdOf(earlier[j]) != "" ==>
      (earlier[j].anonid == r.anonid <==> CaseIdOf(earlier[j]) == CaseIdOf(r))
  }

  /** Row `r` is acceptable below the rows `earlier`. */
  predicate Acceptable(earlier: seq<Row>, r: Row) {
    Active(r) ==> StatusAcceptable(earlier, r) && AnonIdAcceptable(earlier, r) && CaseAcceptable(earlier, r)
  }

  /** Every row is acceptable below the rows above it. */
  predicate ValidLedger(rows: seq<Row>) {
    forall k :: 0 <= k < |rows| ==> Acceptable(rows[..k], rows[k])
  }

  // ---------------------------------------------------------------------
  // The fold computes the reference
  // ---------------------------------------------------------------------

  /** The sets and key sets of the tally after `rows`. */
  ghost predicate InvSets(rows: seq<Row>, t: Tally) {
    && t.barcodeRows.Keys == DoneBarcodes(rows)
    && t.caseRows.Keys == CaseIds(rows)
    && t.done == DoneCaseIds(rows)
    && t.caseids.Keys == PairedAnonIds(rows)
    && t.anonids.Keys == CaseIds(rows)
  }

  /** The two-way map of the tally pairs each row's case id and AnonID. */
  ghost predicate InvMaps(rows: seq<Row>, t: Tally) {
    forall j :: 0 <= j < |rows| && Active(rows[j]) && CaseIdOf(rows[j]) != "" ==>
      && rows[j].anonid in t.caseids && t.caseids[rows[j].anonid] == CaseIdOf(rows[j])
      && CaseIdOf(rows[j]) in t.anonids && t.anonids[CaseIdOf(rows[j])] == rows[j].anonid
  }

  /** The format is the first AnonID's, every AnonID conforms to it, and
      the recorded number is the last row's, the largest so far. */
  ghost predicate InvNumbers(rows: seq<Row>, t: Tally) {
    var first := FirstActive(rows);
    var last := LastActive(rows);
    && (first < 0 <==> t.format.None?)
    && (first >= 0 ==> t.format == Some(FormatOf(rows[first].anonid)))
    && (last < 0 ==> t.number == 0)
    && (last >= 0 ==> t.number == AnonNumber(rows[last].anonid, t.format.value))
    && AnonIdsPresent(rows)
    && (forall j :: 0 <= j < |rows| && Active(rows[j]) ==>
          && Conforms(rows[j].anonid, t.format.value)
          && AnonNumber(rows[j].anonid, t.format.value) <= t.number)
  }

  /** Every row that takes part carries an AnonID. */
  predicate AnonIdsPresent(rows: seq<Row>) {
    forall j :: 0 <= j < |rows| && Active(rows[j]) ==> rows[j].anonid != ""
  }

  /** What the tally after `rows` records about them. */
  ghost predicate Inv(rows: seq<Row>, t: Tally) {
    InvSets(rows, t) && InvMaps(rows, t) && InvNumbers(rows, t)
  }

  lemma DoneBarcodesSnoc(rows: seq<Row>, r: Row)
    ensures DoneBarcodes(rows + [r]) == DoneBarcodes(rows) + (if IsDone(r) then {BarcodeOf(r)} else {})
  {
    var s := rows + [r];
    forall b | b in DoneBarcodes(s) ensures b in DoneBarcodes(rows) + (if IsDone(r) then {BarcodeOf(r)} else {}) {
      var j :| 0 <= j < |s| && IsDone(s[j]) && BarcodeOf(s[j]) == b;
      if j < |rows| {
        assert s[j] == rows[j];
      }
    }
    forall b | b in DoneBarcodes(rows) ensures b in DoneBarcodes(s) {
      var j :| 0 <= j < |rows| && IsDone(rows[j]) && BarcodeOf(rows[j]) == b;
      assert s[j] == rows[j];
    }
    assert s[|rows|] == r;
  }

  lemma CaseIdsSnoc(rows: seq<Row>, r: Row)
    ensures CaseIds(rows + [r]) == CaseIds(rows) + (if Active(r) && CaseIdOf(r) != "" then {CaseIdOf(r)} else {})
  {
    var s := rows + [r];
    forall c | c in CaseIds(s) ensures c in CaseIds(rows) + (if Active(r) && CaseIdOf(r) != "" then {CaseIdOf(r)} else {}) {
      var j :| 0 <= j < |s| && Active(s[j]) && CaseIdOf(s[j]) != "" && CaseIdOf(s[j]) == c;
      if j < |rows| {
        assert s[j] == rows[j];
      }
    }
    forall c | c in CaseIds(rows) ensures c in CaseIds(s) {
      var j :| 0 <= j < |rows| && Active(rows[j]) && CaseIdOf(rows[j]) != "" && CaseIdOf(rows[j]) == c;
      assert s[j] == rows[j];
    }
    assert s[|rows|] == r;
  }

  lemma DoneCaseIdsSnoc(rows: seq<Row>, r: Row)
    ensures DoneCaseIds(rows + [r]) == DoneCaseIds(rows) + (if IsDone(r) && CaseIdOf(r) != "" then {CaseIdOf(r)} else {})
  {
    var s := rows + [r];
    forall c | c in DoneCaseIds(s) ensures c in DoneCaseIds(rows) + (if IsDone(r) && CaseIdOf(r) != "" then {CaseIdOf(r)} else {}) {
      var j :| 0 <= j < |s| && IsDone(s[j]) && CaseIdOf(s[j]) != "" && CaseIdOf(s[j]) == c;
      if j < |rows| {
        assert s[j] == rows[j];
      }
    }
    forall c | c in DoneCaseIds(rows) ensures c in DoneCaseIds(s) {
      var j :| 0 <= j < |rows| && IsDone(rows[j]) && CaseIdOf(rows[j]) != "" && CaseIdOf(rows[j]) == c;
      assert s[j] == rows[j];
    }
    assert s[|rows|] == r;
  }

  lemma PairedAnonIdsSnoc(rows: seq<Row>, r: Row)
    ensures PairedAnonIds(rows + [r]) == PairedAnonIds(rows) + (if Active(r) && CaseIdOf(r) != "" then {r.anonid} else {})
  {
    var s := rows + [r];
    forall a | a in PairedAnonIds(s) ensures a in PairedAnonIds(rows) + (if Active(r) && CaseIdOf(r) != "" then {r.anonid} else {}) {
      var j :| 0 <= j < |s| && Active(s[j]) && CaseIdOf(s[j]) != "" && s[j].anonid == a;
      if j < |rows| {
        assert s[j] == rows[j];
      }
    }
    forall a | a in PairedAnonIds(rows) ensures a in PairedAnonIds(s) {
      var j :| 0 <= j < |rows| && Active(rows[j]) && CaseIdOf(rows[j]) != "" && rows[j].anonid == a;
      assert s[j] == rows[j];
    }
    assert s[|rows|] == r;
  }

  lemma {:induction false} SetsSnoc(rows: seq<Row>, r: Row)
    ensures DoneBarcodes(rows + [r]) == DoneBarcodes(rows) + (if IsDone(r) then {BarcodeOf(r)} else {})
    ensures CaseIds(rows + [r]) == CaseIds(rows) + (if Active(r) && CaseIdOf(r) != "" then {CaseIdOf(r)} else {})
    ensures DoneCaseIds(rows + [r]) == DoneCaseIds(rows) + (if IsDone(r) && CaseIdOf(r) != "" then {CaseIdOf(r)} else {})
    ensures PairedAnonIds(rows + [r]) == PairedAnonIds(rows) + (if Active(r) && CaseIdOf(r) != "" then {r.anonid} else {})
  {
    DoneBarcodesSnoc(rows, r);
    CaseIdsSnoc(rows, r);
    DoneCaseIdsSnoc(rows, r);
    PairedAnonIdsSnoc(rows, r);
  }

  lemma ActiveSnoc(rows: seq<Row>, r: Row)
    ensures FirstActive(rows + [r]) == (if FirstActive(rows) >= 0 then FirstActive(rows) else if Active(r) then |rows| else -1)
    ensures LastActive(rows + [r]) == (if Active(r) then |rows| else LastActive(rows))
  {
    assert (rows + [r])[..|rows|] == rows;
  }

  lemma Initial()
    ensures Inv([], Start)
  {
  }

  /** The status check agrees with `StatusAcceptable`. */
  lemma StatusStep(rows: seq<Row>, t: Tally, r: Row)
    requires InvSets(rows, t)
    ensures CheckStatus(t, FirstDataRow + |rows|, r).Ok? <==> StatusAcceptable(rows, r)
  {
  }

  /** The AnonID check agrees with `AnonIdAcceptable`, and yields the
      format of the ledger and the row's number. */
  lemma AnonIdStep(rows: seq<Row>, t: Tally, r: Row)
    requires InvNumbers(rows, t) && Active(r)
    ensures CheckAnonId(t, FirstDataRow + |rows|, r).Ok? <==> AnonIdAcceptable(rows, r)
    ensures CheckAnonId(t, FirstDataRow + |rows|, r).Ok? ==>
      CheckAnonId(t, FirstDataRow + |rows|, r).value == (FormatOf(HeadAnonId(rows, r)), AnonNumber(r.anonid, FormatOf(HeadAnonId(rows, r))))
  {
    var i := FirstDataRow + |rows|;
    var f := FormatOf(HeadAnonId(rows, r));
    var first := FirstActive(rows);
    var last := LastActive(rows);
    if first >= 0 {
      assert Conforms(rows[first].anonid, f);
      assert t.format == Some(f);
    }
    if r.anonid != "" && f.digits > 0 {
      if first < 0 {
        assert ParseAnonId(i, r.anonid) == Ok(f);
      }
      var v := ValidateAnonIdNumber(i, r.anonid, f, t.number);
      if Conforms(r.anonid, f) {
        var n := AnonNumber(r.anonid, f);
        if last >= 0 {
          assert n >= t.number <==> forall j :: 0 <= j < |rows| && Active(rows[j]) ==> AnonNumber(rows[j].anonid, f) <= n;
        } else {
          assert forall j :: 0 <= j < |rows| ==> !Active(rows[j]);
        }
      }
    } else if r.anonid != "" && first < 0 {
      assert ParseAnonId(i, r.anonid).Err?;
    }
  }

  /** An AnonID is free for a case in the tally exactly when no row above
      pairs it with another case. */
  lemma AdmitsAnonId(rows: seq<Row>, t: Tally, caseid: string, anonid: string)
    requires InvSets(rows, t) && InvMaps(rows, t)
    ensures Admits(t.caseids, anonid, caseid) <==>
      forall j :: 0 <= j < |rows| && Active(rows[j]) && CaseIdOf(rows[j]) != "" && rows[j].anonid == anonid ==>
        CaseIdOf(rows[j]) == caseid
  {
    if anonid in t.caseids {
      var j :| 0 <= j < |rows| && Active(rows[j]) && CaseIdOf(rows[j]) != "" && rows[j].anonid == anonid;
      assert t.caseids[anonid] == CaseIdOf(rows[j]);
    }
  }

  /** A case is free for an AnonID in the tally exactly when no row above
      pairs it with another AnonID. */
  lemma AdmitsCaseId(rows: seq<Row>, t: Tally, caseid: string, anonid: string)
    requires InvSets(rows, t) && InvMaps(rows, t) && AnonIdsPresent(rows)
    ensures Admits(t.anonids, caseid, anonid) <==>
      forall j :: 0 <= j < |rows| && Active(rows[j]) && CaseIdOf(rows[j]) != "" && CaseIdOf(rows[j]) == caseid ==>
        rows[j].anonid == anonid
  {
    if caseid in t.anonids {
      var j :| 0 <= j < |rows| && Active(rows[j]) && CaseIdOf(rows[j]) != "" && CaseIdOf(rows[j]) == caseid;
      assert t.anonids[caseid] == rows[j].anonid;
    }
  }

  /** The case check agrees with `CaseAcceptable`. */
  lemma CaseVerdict(rows: seq<Row>, t: Tally, r: Row, barcodeRows: map<string, int>, f: Format, n: int)
    requires InvSets(rows, t) && InvMaps(rows, t) && AnonIdsPresent(rows) && Active(r)
    ensures CheckCase(t, FirstDataRow + |rows|, r, barcodeRows, f, n).Ok? <==> CaseAcceptable(rows, r)
  {
    var caseid := CaseIdOf(r);
    if caseid != "" {
      AdmitsAnonId(rows, t, caseid, r.anonid);
      AdmitsCaseId(rows, t, caseid, r.anonid);
      PairingSplit(rows, r);
    }
    CaseVerdictCore(rows, t, r, barcodeRows, f, n);
  }

  /** Consistent pairing is the two halves `validate_id_mapping` checks:
      the AnonID has no other case, and the case no other AnonID. */
  lemma PairingSplit(rows: seq<Row>, r: Row)
    ensures PairsConsistently(rows, r) <==>
      && (forall j :: 0 <= j < |rows| && Active(rows[j]) && CaseIdOf(rows[j]) != "" && rows[j].anonid == r.anonid ==>
            CaseIdOf(rows[j]) == CaseIdOf(r))
      && (forall j :: 0 <= j < |rows| && Active(rows[j]) && CaseIdOf(rows[j]) != "" && CaseIdOf(rows[j]) == CaseIdOf(r) ==>
            rows[j].anonid == r.anonid)
  {
  }

  lemma CaseVerdictCore(rows: seq<Row>, t: Tally, r: Row, barcodeRows: map<string, int>, f: Format, n: int)
    requires t.caseRows.Keys == CaseIds(rows) && t.done == DoneCaseIds(rows)
    requires CaseIdOf(r) != "" ==>
      (PairsConsistently(rows, r) <==> Admits(t.caseids, r.anonid, CaseIdOf(r)) && Admits(t.anonids, CaseIdOf(r), r.anonid))
    ensures CheckCase(t, FirstDataRow + |rows|, r, barcodeRows, f, n).Ok? <==> CaseAcceptable(rows, r)
  {
  }

  /** The tally's maps never hold an empty id. */
  lemma TallyNonEmpty(rows: seq<Row>, t: Tally)
    requires InvSets(rows, t) && InvMaps(rows, t) && AnonIdsPresent(rows)
    ensures NoEmptyValues(t.caseids) && NoEmptyValues(t.anonids)
  {
    forall a | a in t.caseids ensures t.caseids[a] != "" {
      var j :| 0 <= j < |rows| && Active(rows[j]) && CaseIdOf(rows[j]) != "" && rows[j].anonid == a;
      assert t.caseids[a] == CaseIdOf(rows[j]);
    }
    forall c | c in t.anonids ensures t.anonids[c] != "" {
      var j :| 0 <= j < |rows| && Active(rows[j]) && CaseIdOf(rows[j]) != "" && CaseIdOf(rows[j]) == c;
      assert t.anonids[c] == rows[j].anonid;
    }
  }

  /** After an accepted row, the tally's maps and sets are the old ones
      with the row's case id and AnonID added. */
  lemma CaseMaps(t: Tally, i: int, r: Row, barcodeRows: map<string, int>, f: Format, n: int)
    requires NoEmptyValues(t.caseids) && NoEmptyValues(t.anonids)
    requires CheckCase(t, i, r, barcodeRows, f, n).Ok?
    ensures
      var t' := CheckCase(t, i, r, barcodeRows, f, n).value;
      var caseid := CaseIdOf(r);
      && t'.caseids == (if caseid != "" then t.caseids[r.anonid := caseid] else t.caseids)
      && t'.anonids == (if caseid != "" then t.anonids[caseid := r.anonid] else t.anonids)
      && t'.caseids.Keys == t.caseids.Keys + (if caseid != "" then {r.anonid} else {})
      && t'.anonids.Keys == t.anonids.Keys + (if caseid != "" then {caseid} else {})
      && t'.barcodeRows == barcodeRows
      && t'.caseRows.Keys == t.caseRows.Keys + (if caseid != "" then {caseid} else {})
      && t'.done == t.done + (if IsDone(r) && caseid != "" then {caseid} else {})
  {
    var caseid := CaseIdOf(r);
    if caseid != "" {
      MappingUpdates(i, caseid, r.anonid, t.caseids, t.anonids);
    }
  }

  /** The key sets follow the rows when a row that takes part is added. */
  lemma TallySets(rows: seq<Row>, t: Tally, r: Row, t': Tally)
    requires InvSets(rows, t) && Active(r)
    requires t'.barcodeRows.Keys == DoneBarcodes(rows + [r])
    requires t'.caseids.Keys == t.caseids.Keys + (if CaseIdOf(r) != "" then {r.anonid} else {})
    requires t'.anonids.Keys == t.anonids.Keys + (if CaseIdOf(r) != "" then {CaseIdOf(r)} else {})
    requires t'.caseRows.Keys == t.caseRows.Keys + (if CaseIdOf(r) != "" then {CaseIdOf(r)} else {})
    requires t'.done == t.done + (if IsDone(r) && CaseIdOf(r) != "" then {CaseIdOf(r)} else {})
    ensures InvSets(rows + [r], t')
  {
    SetsSnoc(rows, r);
  }

  /** The two-way map follows the rows when a row that takes part is
      added whose pair agrees with every earlier pair. */
  lemma TallyMaps(rows: seq<Row>, t: Tally, r: Row, t': Tally)
    requires InvMaps(rows, t) && Active(r)
    requires CaseIdOf(r) != "" ==> PairsConsistently(rows, r)
    requires t'.caseids == (if CaseIdOf(r) != "" then t.caseids[r.anonid := CaseIdOf(r)] else t.caseids)
    requires t'.anonids == (if CaseIdOf(r) != "" then t.anonids[CaseIdOf(r) := r.anonid] else t.anonids)
    ensures InvMaps(rows + [r], t')
  {
    var s := rows + [r];
    forall j | 0 <= j < |s| && Active(s[j]) && CaseIdOf(s[j]) != ""
      ensures s[j].anonid in t'.caseids && t'.caseids[s[j].anonid] == CaseIdOf(s[j])
      ensures CaseIdOf(s[j]) in t'.anonids && t'.anonids[CaseIdOf(s[j])] == s[j].anonid
    {
      if j < |rows| {
        assert s[j] == rows[j];
      } else {
        assert s[j] == r;
      }
    }
  }

  /** The tally after an accepted row records the rows with it added. */
  lemma CaseTally(rows: seq<Row>, t: Tally, r: Row, barcodeRows: map<string, int>)
    requires Inv(rows, t) && Active(r)
    requires AnonIdAcceptable(rows, r) && CaseAcceptable(rows, r)
    requires barcodeRows.Keys == DoneBarcodes(rows + [r])
    requires
      var f := FormatOf(HeadAnonId(rows, r));
      CheckCase(t, FirstDataRow + |rows|, r, barcodeRows, f, AnonNumber(r.anonid, f)).Ok?
    ensures
      var f := FormatOf(HeadAnonId(rows, r));
      Inv(rows + [r], CheckCase(t, FirstDataRow + |rows|, r, barcodeRows, f, AnonNumber(r.anonid, f)).value)
  {
    var i := FirstDataRow + |rows|;
    var f := FormatOf(HeadAnonId(rows, r));
    var n := AnonNumber(r.anonid, f);
    var t' := CheckCase(t, i, r, barcodeRows, f, n).value;
    TallyNonEmpty(rows, t);
    CaseMaps(t, i, r, barcodeRows, f, n);
    TallySets(rows, t, r, t');
    TallyMaps(rows, t, r, t');
    NumbersTally(rows, t, r, t');
  }

  lemma NumbersTally(rows: seq<Row>, t: Tally, r: Row, t': Tally)
    requires InvNumbers(rows, t) && Active(r) && AnonIdAcceptable(rows, r)
    requires t'.format == Some(FormatOf(HeadAnonId(rows, r)))
    requires t'.number == AnonNumber(r.anonid, FormatOf(HeadAnonId(rows, r)))
    ensures InvNumbers(rows + [r], t')
  {
    var s := rows + [r];
    ActiveSnoc(rows, r);
    assert forall j :: 0 <= j < |rows| ==> s[j] == rows[j];
    assert s[|rows|] == r;
    var first := FirstActive(rows);
    if first >= 0 {
      assert t.format == t'.format;
    }
  }

  /** One row of the fold agrees with `Acceptable` and keeps `Inv`. */
  lemma RowStep(rows: seq<Row>, t: Tally, r: Row)
    requires Inv(rows, t)
    ensures ValidateRow(t, FirstDataRow + |rows|, r).Ok? <==> Acceptable(rows, r)
    ensures ValidateRow(t, FirstDataRow + |rows|, r).Ok? ==> Inv(rows + [r], ValidateRow(t, FirstDataRow + |rows|, r).value)
  {
    var i := FirstDataRow + |rows|;
    if !Active(r) {
      InactiveTally(rows, t, r);
    } else {
      StatusStep(rows, t, r);
      if StatusAcceptable(rows, r) {
        var barcodeRows := CheckStatus(t, i, r).value;
        DoneBarcodesSnoc(rows, r);
        AnonIdStep(rows, t, r);
        if AnonIdAcceptable(rows, r) {
          var f := FormatOf(HeadAnonId(rows, r));
          var n := AnonNumber(r.anonid, f);
          CaseVerdict(rows, t, r, barcodeRows, f, n);
          assert ValidateRow(t, i, r) == CheckCase(t, i, r, barcodeRows, f, n);
          if CaseAcceptable(rows, r) {
            CaseTally(rows, t, r, barcodeRows);
          }
        }
      }
    }
  }

  /** An ignored row leaves the tally recording the rows with it added. */
  lemma InactiveTally(rows: seq<Row>, t: Tally, r: Row)
    requires Inv(rows, t) && !Active(r)
    ensures Inv(rows + [r], t)
  {
    InactiveSets(rows, t, r);
    InactiveMaps(rows, t, r);
    InactiveNumbers(rows, t, r);
  }

  lemma InactiveSets(rows: seq<Row>, t: Tally, r: Row)
    requires InvSets(rows, t) && !Active(r)
    ensures InvSets(rows + [r], t)
  {
    SetsSnoc(rows, r);
    DoneIsActive(r);
  }

  lemma InactiveMaps(rows: seq<Row>, t: Tally, r: Row)
    requires InvMaps(rows, t) && !Active(r)
    ensures InvMaps(rows + [r], t)
  {
    var s := rows + [r];
    forall j | 0 <= j < |s| && Active(s[j]) && CaseIdOf(s[j]) != ""
      ensures s[j].anonid in t.caseids && t.caseids[s[j].anonid] == CaseIdOf(s[j])
      ensures CaseIdOf(s[j]) in t.anonids && t.anonids[CaseIdOf(s[j])] == s[j].anonid
    {
      assert j < |rows| && s[j] == rows[j];
    }
  }

  lemma InactiveNumbers(rows: seq<Row>, t: Tally, r: Row)
    requires InvNumbers(rows, t) && !Active(r)
    ensures InvNumbers(rows + [r], t)
  {
    var s := rows + [r];
    ActiveSnoc(rows, r);
    forall j | 0 <= j < |s| && Active(s[j])
      ensures s[j].anonid != "" && Conforms(s[j].anonid, t.format.value)
      ensures AnonNumber(s[j].anonid, t.format.value) <= t.number
    {
      assert j < |rows| && s[j] == rows[j];
    }
    if FirstActive(rows) >= 0 {
      assert s[FirstActive(rows)] == rows[FirstActive(rows)];
    }
    if LastActive(rows) >= 0 {
      assert s[LastActive(rows)] == rows[LastActive(rows)];
    }
  }

  lemma ValidLedgerSnoc(rows: seq<Row>, r: Row)
    ensures ValidLedger(rows + [r]) <==> ValidLedger(rows) && Acceptable(rows, r)
  {
    var s := rows + [r];
    assert s[..|rows|] == rows;
    assert forall k :: 0 <= k < |rows| ==> s[..k] == rows[..k] && s[k] == rows[k];
  }

  lemma ScanSnoc(rows: seq<Row>, r: Row)
    ensures Scan(rows).Err? ==> Scan(rows + [r]).Err?
    ensures Scan(rows).Ok? ==> Scan(rows + [r]) == ValidateRow(Scan(rows).value, FirstDataRow + |rows|, r)
  {
    var s := rows + [r];
    assert s[..|s| - 1] == rows;
    assert s[|s| - 1] == r;
  }

  /** The fold succeeds exactly on valid ledgers, and its tally then
      records the whole ledger. */
  lemma {:induction false} ScanCharacterized(rows: seq<Row>)
    ensures Scan(rows).Ok? <==> ValidLedger(rows)
    ensures Scan(rows).Ok? ==> Inv(rows, Scan(rows).value)
  {
    if |rows| == 0 {
      Initial();
    } else {
      var init := rows[..|rows| - 1];
      var r := rows[|rows| - 1];
      assert rows == init + [r];
      ScanCharacterized(init);
      ValidLedgerSnoc(init, r);
      ScanSnoc(init, r);
      if Scan(init).Ok? {
        RowStep(init, Scan(init).value, r);
      }
    }
  }

  /** A failing fold reports the first row that is not acceptable below
      the rows above it, and the rows above it form a valid ledger. */
  lemma {:induction false} ScanRejects(rows: seq<Row>)
    ensures Scan(rows).Err? ==> exists k :: (0 <= k < |rows| && ValidLedger(rows[..k])
      && !Acceptable(rows[..k], rows[k]) && Scan(rows).error.row == FirstDataRow + k)
  {
    if |rows| > 0 {
      var init := rows[..|rows| - 1];
      var r := rows[|rows| - 1];
      assert rows == init + [r];
      ScanSnoc(init, r);
      if Scan(init).Err? {
        ScanRejects(init);
        var k :| 0 <= k < |init| && ValidLedger(init[..k])
          && !Acceptable(init[..k], init[k]) && Scan(init).error.row == FirstDataRow + k;
        assert rows[..k] == init[..k] && rows[k] == init[k];
        assert Scan(rows).error == Scan(init).error;
      } else if Scan(rows).Err? {
        ScanCharacterized(init);
        RowStep(init, Scan(init).value, r);
        assert rows[..|init|] == init;
        RejectedAt(rows, |init|, Scan(rows).error);
      }
    }
  }

  lemma RejectedAt(rows: seq<Row>, k: nat, e: Error)
    requires k < |rows| && ValidLedger(rows[..k]) && !Acceptable(rows[..k], rows[k]) && e.row == FirstDataRow + k
    ensures exists k :: (0 <= k < |rows| && ValidLedger(rows[..k])
      && !Acceptable(rows[..k], rows[k]) && e.row == FirstDataRow + k)
  {
  }
}
